=== FILE: README.md ===
# Ultrademic terminal chat client: a Dafny model of its deterministic core

The client is a React chat front end for Google's Gemini models, styled as a retro terminal.
This project models the four pieces of deterministic logic inside it and proves their
properties:

- **AsciiImage** (`ascii_image.dfy`, with the layout facts in `text_grid.dfy`). This is the
  image-to-ASCII renderer. It works on the RGBA bytes of the picture after scaling. It
  computes the canvas height, maps each pixel's BT.709 luminance onto the 13-glyph ramp
  `"@#S%?*+;:,.. "`, and lays the glyphs out row by row with a newline after every row. All
  arithmetic is exact integers: the weights 0.2126/0.7152/0.0722 become 2126/7152/722.
  The client computes in doubles instead. At exact quantisation boundaries, which
  34 colours hit (white among them), the client's index is one lower; see "## Left out".
  The component's ramp and 0.5 aspect factor are fixed. It has no contrast step and no
  clamp on the glyph index (none is needed, see `GlyphIndex`). It has no decode-error
  result: an image that fails to load leaves `CONVERTING_TO_ASCII...` on screen.
- **GeminiService** (`gemini_service.dfy`). This is the session manager in front of the
  remote chat API. It keeps one chat handle per session id, creates handles lazily from the
  converted message history, can forget a handle, and republishes a reply stream. A failure
  appears as one final notice chunk.
- **Store** (`store.dfy`). This is the application state of App.tsx: sessions, per-session
  message history, the active session, the typing flag and the user's settings. Every
  handler is a pure transition: create, delete, rename, append, update by id, image
  generation, vault import and export. The initial channel sessions and the glow colour are
  modelled too.
- **ChatInterface** (`chat_interface.dfy`). This is the send handler of the chat view. It
  covers:
  - the guard that decides whether a send happens;
  - recognising the `/render` and `/imagine` commands and extracting their prompt;
  - the user message and the model placeholder it files;
  - the reply, either streamed chunk by chunk or reported by the image generator.

`types.dfy` holds the records and the fixed persona and channel catalogue. `text.dfy` holds
the JavaScript string operations the client uses: `trim`, `startsWith`, `toUpperCase`,
number-to-string and repeated `+=`.

Inputs that the real program gets from its environment become parameters:

- every `Date.now()` reading;
- the remote chat handle, which is any type `H` produced by a caller-supplied `create`
  function;
- what a reply stream delivers (`StreamRun`);
- what awaiting the image generator did (`Generated`): it returned an image or nothing, or
  it threw.

## Model

| member | source | states |
|---|---|---|
| Types.CatalogueConsistent | constants.tsx:4-65 | Each persona is filed under its own id, the fallback id `neuro-synapse` is in the catalogue, and every channel's persona is a catalogue entry. |
| Text.Trim | components/ChatInterface.tsx:42-44 | `trim` returns a contiguous slice with no whitespace at either end, and everything cut away is whitespace (the ECMAScript WhiteSpace and LineTerminator set). |
| Text.TrimIdempotent | components/ChatInterface.tsx:42-44 | Trimming twice is the same as trimming once. |
| Text.Upper | components/ChatInterface.tsx:65 | `toUpperCase` (ASCII letters) keeps the length and maps the string character by character. |
| Text.DecimalRoundTrip | App.tsx:122 | The decimal numeral of `Date.now()` reads back as the same number, so distinct clock readings give distinct ids. |
| Text.ConcatPrefix | components/ChatInterface.tsx:91-97 | Concatenating the first `k` chunks gives a prefix of the concatenation of all chunks. |
| TextGrid.JoinLinesLength | components/AsciiImage.tsx:31-44 | `h` rows of width `w`, each followed by a newline, make `h * (w + 1)` characters (as repeated addition). |
| TextGrid.JoinLinesAt | components/AsciiImage.tsx:33-43 | Character `x` of row `y` sits at row offset plus `x`, and the newline closing row `y` sits at row offset plus `w`. |
| TextGrid.JoinLinesLayout | components/AsciiImage.tsx:33-43 | The same layout with product offsets: `y * (w + 1) + x` and `y * (w + 1) + w`, and total length `h * (w + 1)`. |
| TextGrid.JoinLinesAlphabet | components/AsciiImage.tsx:41-43 | If every row uses only characters from a set, the text uses only that set plus newlines. |
| AsciiImage.TargetHeightIsFloor | components/AsciiImage.tsx:23 | The row count is the floor of `(H / W) * width * 0.5`: the `h` with `2W*h <= H*width < 2W*(h+1)`. |
| AsciiImage.NoRowsWhenFlat | components/AsciiImage.tsx:23 | The canvas has zero rows exactly when `H * width < 2 * W`. |
| AsciiImage.LumaIndex | components/AsciiImage.tsx:39-40 | The index of a weighted sum `w` is the floor of `12 * w / 2550000`: `2550000*i <= 12*w < 2550000*(i+1)`, and it is at most 12. |
| AsciiImage.LumaIndexMonotone | components/AsciiImage.tsx:39-40 | A larger weighted sum never gets a smaller index. |
| AsciiImage.GlyphIndex | components/AsciiImage.tsx:30-40 | A pixel's index is always below the ramp length 13, although the code never clamps it. |
| AsciiImage.GlyphIndexMonotone | components/AsciiImage.tsx:36-40 | Raising any of red, green or blue, the others not lowered, never lowers the glyph index. |
| AsciiImage.DarkPixel | components/AsciiImage.tsx:39-41 | Any pixel darker than one twelfth of full brightness prints as `'@'`. |
| AsciiImage.BlackIsDensest | components/AsciiImage.tsx:30-41 | Black `(0,0,0)` has index 0 and prints as `'@'`. |
| AsciiImage.WhiteIsBlank | components/AsciiImage.tsx:30-41 | With exact arithmetic, white `(255,255,255)` has index 12 (the last) and prints as `' '`; the client's doubles give index 11 (see "## Left out"). |
| AsciiImage.OffsetInFrame | components/AsciiImage.tsx:35-38 | Every byte read for a pixel, from offset+0 up to the alpha byte at offset+3, lies inside the `4*width*height`-byte buffer. |
| AsciiImage.RowGlyphs | components/AsciiImage.tsx:34-42 | A row built for `n` pixels has `n` glyphs, and glyph `x` is the glyph of pixel `(x, y)`. |
| AsciiImage.PixelRows | components/AsciiImage.tsx:33-44 | The first `k` rows are `k` rows of exactly `width` glyphs, holding the glyph of each pixel. |
| AsciiImage.Render | components/AsciiImage.tsx:31-44 | The nested loop builds exactly the rows-and-newlines string of the picture. |
| AsciiImage.ArtLength | components/AsciiImage.tsx:31-44 | The output has `height * (width + 1)` characters. |
| AsciiImage.ArtAt | components/AsciiImage.tsx:33-43 | Pixel `(x, y)`'s glyph is at `y * (width + 1) + x`, and a newline is at `y * (width + 1) + width`. |
| AsciiImage.PictureAt | components/AsciiImage.tsx:33-43 | The same layout for a canvas of any height: glyph of `(x, y)` at `y * (width + 1) + x`, newline at `y * (width + 1) + width`. |
| AsciiImage.EmptyIffNoRows | components/AsciiImage.tsx:23-44 | On a given buffer, the loop's result is `""` exactly when the computed height is 0 (in the browser that case throws earlier; see "## Left out"). |
| AsciiImage.OnlyRampGlyphs | components/AsciiImage.tsx:30-43 | Every output character is a ramp glyph or a newline. |
| AsciiImage.SingleColourArt | components/AsciiImage.tsx:33-44 | A picture of one colour renders as a single glyph repeated, plus newlines. |
| AsciiImage.AlphaIgnored | components/AsciiImage.tsx:35-38 | Two buffers that differ only in alpha bytes render the same string. |
| AsciiImage.PixelGlyphIgnoresAlpha | components/AsciiImage.tsx:35-39 | A pixel's glyph depends only on its red, green and blue bytes. |
| GeminiService.RoleName | services/geminiService.ts:17 | The role name is `"user"` exactly for USER messages and `"model"` for MODEL and SYSTEM. |
| GeminiService.ToContent | services/geminiService.ts:16-19 | One message becomes one entry with its role name and a single part holding its text. |
| GeminiService.ToHistory | services/geminiService.ts:16-19 | Conversion keeps the length and converts each position. |
| GeminiService.ToHistoryAppend | services/geminiService.ts:16-19 | Conversion distributes over concatenation, so it keeps order. |
| GeminiService.GetChatSession | services/geminiService.ts:13-33 | A cached id returns its handle and leaves the cache alone. An uncached id gets a handle created from the model name, the persona and the converted history, added under that key only. Afterwards the id is always cached. |
| GeminiService.GetChatSessionStable | services/geminiService.ts:14-32 | A second lookup under the same id returns the same handle and changes nothing, whatever persona and history it is given. |
| GeminiService.ResetSession | services/geminiService.ts:49-51 | Reset removes exactly that key, and resetting an absent key changes nothing. |
| GeminiService.ResetThenGet | services/geminiService.ts:13-51 | After a reset, the next lookup creates a new handle from the history given then. |
| GeminiService.FailureText | services/geminiService.ts:45 | The failure notice is `"\n[NEURAL_LINK_FAILURE]: "` followed by the error's message, or `UNEXPECTED_DISCONNECT` when something other than an `Error` was thrown. |
| GeminiService.Yields | services/geminiService.ts:36-46 | Each chunk yields its text, or `""` when it has none. A failure adds exactly one last chunk, the notice. |
| GeminiService.ReplyEndsWithFailure | services/geminiService.ts:43-46 | After a failure, the accumulated reply ends with the failure notice. |
| GeminiService.SendMessageStream | services/geminiService.ts:35-47 | The cache gains the session's key and keeps every other handle; a session without a handle gets one opened from the current history. The yields are each chunk's text (or `""`), then exactly one failure notice if the stream failed. |
| Store.ChannelSessions | App.tsx:24-30 | There is one session per channel, in order, with the channel's id and name, its persona's id, its own clock reading, and marked static. |
| Store.InitialState | App.tsx:21-47 | A first start has three static sessions with distinct ids and catalogue personas, an empty history, no active session and no reply in progress. |
| Store.Glow | App.tsx:71 | The glow extends the colour, and it is two characters longer (`"66"`) exactly when the colour starts with `#`. |
| Store.CurrentSession | App.tsx:75 | This is the first session whose id is the active id, or none exactly when no session has it. |
| Store.Greeting | App.tsx:133-138 | The greeting is a MODEL message with id `greet-<id>` whose text starts with `[NEURAL_LINK_ESTABLISHED] ` and the persona's name. |
| Store.CreateSession | App.tsx:118-143 | An unknown persona changes nothing. Otherwise a session `uplink-<clock>` named `Link_<persona name>` goes to the front, the rest keep their order, it becomes active, and its history is exactly the greeting. Other histories are untouched. |
| Store.RemoveSessions | App.tsx:146 | The survivors are exactly the sessions with another id. With no match the list is unchanged. |
| Store.RemoveSessionsAppend | App.tsx:146 | Filtering distributes over concatenation, so the survivors keep their relative order. |
| Store.DeleteSession | App.tsx:145-155 | The sessions with that id go, its history key goes and the others are unchanged. The active id is cleared only when it was the deleted one. The chat handle of that id is forgotten. |
| Store.CreateThenDelete | App.tsx:118-155 | Deleting a freshly created session whose id was unused restores the sessions, history and handles, and leaves no session active. |
| Store.RemoveFront | App.tsx:146 | Deleting an id that only the front session holds gives back the rest of the list. |
| Store.DeleteUndoesPrepend | App.tsx:145-155 | Deleting a session that was put in front under an unused id, with a history key of its own, restores everything else. |
| Store.RenameSessions | App.tsx:158 | The list keeps its length. Sessions with a matching id change only their name, to the new one, and all others are unchanged. |
| Store.RenameSession | App.tsx:157-159 | Only the session list changes: ids and order stay, and only matching sessions' names change. |
| Store.RenameOverwrites | App.tsx:157-159 | The last rename wins, and renaming an unknown id changes nothing. |
| Store.NewMessage | App.tsx:161-167 | Without a truthy active id nothing changes. Otherwise the active list (or an empty one) gains the message at the end, and other keys are untouched. |
| Store.UpdateOne | App.tsx:173-178 | The id, role, timestamp and flag stay. A match takes the new content, and takes the new image only when it is non-empty. |
| Store.UpdateMessages | App.tsx:172-178 | The list keeps its length, and each position is updated independently. |
| Store.UpdateIn | App.tsx:169-181 | Without a truthy captured active id nothing changes. Otherwise that session's list (or `[]`) is updated and written back, and other keys are untouched. |
| Store.UpdateBotMessage | App.tsx:169-181 | Without a truthy active id nothing changes. Otherwise the active list (or `[]`) keeps its length with each message updated in place, the key exists afterwards, and every other history, the sessions and the settings are untouched. |
| Store.UpdateMessagesOverwrite | App.tsx:169-181 | Two updates aimed at one id equal the last one; without a second image, the first image is kept. |
| Store.UpdateBotMessageOverwrite | App.tsx:169-181 | The same overwrite law on the whole state. |
| Store.UpdateAbsentId | App.tsx:172-178 | An update aimed at an id no message has leaves the list unchanged. |
| Store.ImageGenTarget | App.tsx:183-193 | The target is the active session when its id is truthy. Otherwise it is the first listed session. With no sessions at all there is none. |
| Store.ImagePlaceholder | App.tsx:195-201 | The placeholder is a MODEL message `bot-img-<clock>` whose text starts with `[INITIATING_SYNTHESIS]\nPROMPT: ` and the upper-cased prompt. |
| Store.ImageGenPending | App.tsx:187-208 | The placeholder is appended to the target's list, the target becomes active and the typing flag is raised. |
| Store.ImageGenAsWritten | App.tsx:183-217 | With no target a default-persona session is created instead. Otherwise the target becomes active and gains one message, the `bot-img-<clock>` one. The typing flag ends lowered exactly when the generator returned. Other histories, the sessions and the settings are untouched. When the first session was adopted, or the generator threw, the new last message is still the unmodified placeholder. |
| Store.ImageGenCorrected | App.tsx:183-217 | As above. When the generator returned, on every branch the target's last message is the placeholder carrying the final success or failure text, with the image on success. When it threw, the placeholder stays as filed and the typing flag stays raised. Other histories and the settings are untouched. |
| Store.ImageGenAgreeWhenActive | App.tsx:183-217 | With a truthy active id, the code as written and the corrected version agree. |
| Store.ImageGenAsWrittenStrandsPlaceholder | App.tsx:169-214 | With no active id, a first session to adopt and a generator that returns, the code as written leaves the placeholder unchanged, unlike the corrected version. |
| Store.PlaceholderIsNotFinal | App.tsx:199-214 | The placeholder text differs from both final texts. |
| Store.ExportVault | App.tsx:79-86 | The exported record carries the sessions, the history, the user name and the theme colour. |
| Store.ImportVault | App.tsx:101-110 | A record missing sessions or history is ignored. Otherwise both replace the current ones, the name and colour are taken unless missing or empty, and the active session stays. |
| Store.ExportImportRoundTrip | App.tsx:79-108 | Importing an export restores its sessions and history, and its non-empty settings. Importing one's own export changes nothing. |
| ChatInterface.PersonaFor | components/ChatInterface.tsx:32 | The persona is the session's own if the catalogue has it, else the default persona, and none without a session. It is always a catalogue entry. |
| ChatInterface.StripCommand | components/ChatInterface.tsx:59 | The result is a tail of the input. It is shorter exactly when the input begins with `/render` or `/imagine` plus whitespace. Then everything cut after the word is whitespace, and the rest does not start with whitespace. |
| ChatInterface.PromptOfTrimmedCommand | components/ChatInterface.tsx:45-59 | A render command that does not end in whitespace leaves a non-empty prompt that does not start with whitespace. |
| ChatInterface.PromptOfCommand | components/ChatInterface.tsx:44-59 | For trimmed input, a render command leaves a non-empty prompt with no whitespace at either end. |
| ChatInterface.PlanSend | components/ChatInterface.tsx:42-89 | A send happens exactly when the trimmed input is non-empty, no reply is in progress and there is a session. The user message is USER with the trimmed input. The placeholder is MODEL `bot-<clock>` with another id: empty for chat, and embedding the upper-cased prompt for render commands. |
| ChatInterface.RenderText | components/ChatInterface.tsx:72-80 | The success text appears exactly when the generator returned a non-empty image. |
| ChatInterface.StreamReply | components/ChatInterface.tsx:91-97 | After all chunks, the state is one update with the full concatenation; without chunks it is unchanged. |
| ChatInterface.StreamGrows | components/ChatInterface.tsx:91-97 | Each streamed text extends the one before. |
| ChatInterface.Pending | components/ChatInterface.tsx:54-89 | The active list gains the user message and then the placeholder, and the typing flag is raised. |
| ChatInterface.UpdateHitsPlaceholder | components/ChatInterface.tsx:72-96 | An update aimed at the placeholder leaves the user message before it alone and gives the placeholder the new text. |
| ChatInterface.HandleSendMessage | components/ChatInterface.tsx:40-101 | A rejected send changes nothing. An accepted one files the user message and then the placeholder. The placeholder ends with the concatenated stream (failure notice included) or the render outcome. If the image generator throws, the placeholder stays as filed. The chat handle is looked up with the history before the send. The typing flag ends lowered, except after a throwing image generator, where it stays raised. |

## Left out

- The browser image pipeline (components/AsciiImage.tsx:14-28) is not modelled. Image
  loading, canvas resampling and `getImageData` happen outside the model, which starts from
  the scaled RGBA buffer.
- Floating point is not modelled. The height and the brightness are computed in doubles in
  the client and exactly here, so the two can differ only at exact quantisation boundaries.
- AsciiImage.WhiteIsBlank: holds only with exact arithmetic. In the client,
  `(0.2126*255 + 0.7152*255 + 0.0722*255) / 255` evaluates to `0.9999999999999999` in
  doubles, so white gets index 11 and prints `'.'`; no pixel reaches index 12, and `' '`
  never appears in the client's output.
- AsciiImage.EmptyIffNoRows: describes the loop on a buffer it is given. In the browser a
  computed height of 0 (or a width of 0) makes `getImageData` at
  components/AsciiImage.tsx:28 throw, so the load handler stops before the loop and the
  component keeps showing `CONVERTING_TO_ASCII...`; it never shows `""`.
- AsciiImage.TargetHeightIsFloor: requires a natural width above 0, as does
  AsciiImage.TargetHeight. The load handler runs only for decoded images, which have a
  positive size.
- Persistence and file I/O are not modelled: `localStorage`, `JSON.parse`/`stringify`, the
  export download, `FileReader` and `alert`. Only the merge rule is modelled, applied to a
  vault record that is already parsed.
- Store.ExportVault: does not carry the export timestamp or the version tag, because the
  import never reads them.
- The remote SDK is opaque. The `create` parameter is `chats.create`. The temperature (0.9),
  top-p (0.95) and persona system-instruction prose are not part of `ChatConfig`. The
  message text sent to the chat goes only to the SDK. Console logging is not modelled.
- GeminiService.SendMessageStream: always records the handle in the cache. If `chats.create`
  itself throws, the source caches nothing; the model shows that case only as a run that
  fails before its first chunk.
- The image generator is not modelled. It is called at App.tsx:209 and
  components/ChatInterface.tsx:70 but is not defined in services/geminiService.ts, so what
  the call did is a `Generated` parameter. As the service stands, the call throws a
  `TypeError`, which is the `Threw` case. Neither caller catches it, so the placeholder
  stays pending and the typing flag stays raised. The chat view's guard then refuses every
  later send; `PlanSend` models that guard.
- Asynchronous interleaving is not modelled. Each handler runs to completion with its state
  updates applied in order. Overlapping sends, the `isTyping` race, and the user switching
  sessions while a reply streams are out of scope.
- ChatInterface.HandleSendMessage: requires a truthy active session id, because App.tsx:255
  mounts the chat view only then. The cleared input box is view state and is not modelled.
- Text.Upper: maps only ASCII letters. JavaScript's full Unicode case mapping is not
  modelled.
- ChatInterface.PersonaFor: the catalogue is a map. Inherited object keys such as
  `constructor`, which a JavaScript record lookup would also find, are not modelled.
- Store.CreateSession: the same caveat applies to its persona lookup at App.tsx:119-120.
  "An unknown persona changes nothing" does not hold for an inherited key such as
  `constructor`, for which the source creates a session. No caller in this tree passes such
  an id.
- Store.DeleteSession: does not refuse static sessions, and neither does the handler. The
  only protection is that components/Sidebar.tsx:89 hides the delete button.
- The boot/login phases, the clock, the CSS property writes and the presentation components
  are not part of this model.

## Findings

| source | as written | input that shows it | evidently intended | confidence | as-written member | corrected member |
|---|---|---|---|---|---|---|
| App.tsx:169-214 | `handleTriggerImageGen` picks the first session when none is active and files the placeholder there. It then reports the result through `handleUpdateBotMessage` from the same render, whose captured active id is still `null`, so the update returns early. | No active session (dashboard shown), at least one session, and `handleTriggerImageGen` invoked through the `onGenerateImage` prop that App.tsx:240 passes to the sidebar. The components/Sidebar.tsx in this tree does not take that prop, so the trigger belongs to a sidebar version that is not part of this model. The image generator must also return; the service in this tree defines none, so there the call throws first. | The placeholder in the adopted session should show the success or failure text, as it does when a session was already active. | not executed | Store.ImageGenAsWrittenStrandsPlaceholder | Store.ImageGenCorrected |

=== FILE: ascii_image.dfy ===
/** The image-to-ASCII conversion of components/AsciiImage.tsx, from the moment the browser
    has scaled the picture onto a `width` x `height` canvas and handed back its RGBA bytes.

    Everything is exact integer arithmetic. The BT.709 luminance weights 0.2126, 0.7152 and
    0.0722 are scaled by 10000 to 2126, 7152 and 722, which sum to 10000; a pixel's brightness
    is then `Weighted / 2550000` and its glyph index `floor(12 * Weighted / 2550000)`. */
module AsciiImage {
  import opened TextGrid

  type byte = x: int | 0 <= x < 256

  /** The glyph ramp, darkest first. Black prints as '@'; with exact arithmetic white reaches
      the final ' ', while the client's double-precision brightness for white falls just short
      of 1 and prints '.' instead. */
  const Ramp: string := "@#S%?*+;:,.. "

  /** Bytes per pixel in the canvas buffer (red, green, blue, alpha). */
  const Stride: nat := 4

  /** `10000 * (0.2126 R + 0.7152 G + 0.0722 B)`: the luminance scaled to an integer in `[0, 2550000]`. */
  function Weighted(r: byte, g: byte, b: byte): (w: nat)
    ensures w <= 2550000
  {
    2126 * r + 7152 * g + 722 * b
  }

  /** Row count of the canvas: `floor((H / W) * width * 0.5)` for natural size `W` x `H`. */
  function TargetHeight(naturalWidth: nat, naturalHeight: nat, width: nat): nat
    requires naturalWidth > 0
  {
    var scaled: nat := naturalHeight * width;
    scaled / (2 * naturalWidth)
  }

  /** The row count is the floor of `H * width / (2 * W)`: the largest `h` with
      `2 * W * h <= H * width`. */
  lemma TargetHeightIsFloor(naturalWidth: nat, naturalHeight: nat, width: nat)
    requires naturalWidth > 0
    ensures var h := TargetHeight(naturalWidth, naturalHeight, width);
            2 * naturalWidth * h <= naturalHeight * width < 2 * naturalWidth * (h + 1)
  {
  }

  lemma MulMonotone(a: nat, b: nat, c: nat)
    requires a <= b
    ensures a * c <= b * c
  {
  }

  /** The canvas has no rows exactly when `H * width < 2 * W`: a zero-width rendering, or an
      image much wider than tall drawn at few columns. */
  lemma NoRowsWhenFlat(naturalWidth: nat, naturalHeight: nat, width: nat)
    requires naturalWidth > 0
    ensures TargetHeight(naturalWidth, naturalHeight, width) == 0 <==> naturalHeight * width < 2 * naturalWidth
  {
    var h := TargetHeight(naturalWidth, naturalHeight, width);
    TargetHeightIsFloor(naturalWidth, naturalHeight, width);
    if h > 0 {
      MulMonotone(1, h, 2 * naturalWidth);
    }
  }

  /** `floor(brightness * (|Ramp| - 1))` for a weighted sum `w`, the brightness being
      `w / 2550000`. */
  function LumaIndex(w: nat): (i: nat)
    requires w <= 2550000
    ensures i <= 12
    ensures 2550000 * i <= 12 * w < 2550000 * (i + 1)
  {
    (12 * w) / 2550000
  }

  /** The glyph index of a pixel. It is always a valid ramp index although the code never
      clamps it, because the three weights sum to one. */
  function GlyphIndex(r: byte, g: byte, b: byte): (i: nat)
    ensures i < |Ramp|
  {
    LumaIndex(Weighted(r, g, b))
  }

  function Glyph(r: byte, g: byte, b: byte): char
  {
    Ramp[GlyphIndex(r, g, b)]
  }

  /** A brighter pixel never gets a darker glyph: the index is monotone in the weighted sum. */
  lemma LumaIndexMonotone(w1: nat, w2: nat)
    requires w1 <= w2 <= 2550000
    ensures LumaIndex(w1) <= LumaIndex(w2)
  {
    var i, j := LumaIndex(w1), LumaIndex(w2);
    assert 2550000 * i < 2550000 * (j + 1);
  }

  /** Raising one colour channel of a pixel, all else equal, never lowers its glyph index. */
  lemma GlyphIndexMonotone(r1: byte, g1: byte, b1: byte, r2: byte, g2: byte, b2: byte)
    requires r1 <= r2 && g1 <= g2 && b1 <= b2
    ensures GlyphIndex(r1, g1, b1) <= GlyphIndex(r2, g2, b2)
  {
    LumaIndexMonotone(Weighted(r1, g1, b1), Weighted(r2, g2, b2));
  }

  /** Pixels darker than one twelfth of full brightness print as '@'. */
  lemma DarkPixel(r: byte, g: byte, b: byte)
    requires Weighted(r, g, b) < 212500
    ensures GlyphIndex(r, g, b) == 0 && Glyph(r, g, b) == '@'
  {
  }

  /** A black pixel prints as '@', the densest glyph at the start of the ramp. */
  lemma BlackIsDensest()
    ensures GlyphIndex(0, 0, 0) == 0 && Glyph(0, 0, 0) == '@'
  {
    DarkPixel(0, 0, 0);
  }

  /** With exact arithmetic a white pixel reaches the last glyph of the ramp, ' '. (The client
      computes the brightness in doubles, where white comes to just under 1 and gets index 11.) */
  lemma WhiteIsBlank()
    ensures GlyphIndex(255, 255, 255) == |Ramp| - 1 && Glyph(255, 255, 255) == ' '
  {
    assert Weighted(255, 255, 255) == 2550000;
    assert Ramp[12] == ' ';
  }

  /** The canvas buffer of a `width` x `height` picture holds exactly four bytes per pixel. */
  predicate InFrame(data: seq<byte>, width: nat, height: nat)
  {
    |data| == Stride * Area(width, height)
  }

  /** Byte offset of the red channel of pixel `(x, y)`, row-major: `4 * (y * width + x)`. */
  function Offset(width: nat, x: nat, y: nat): nat
  {
    Stride * (Area(width, y) + x)
  }

  /** Every byte the renderer reads, the alpha byte included, lies inside the buffer. */
  lemma OffsetInFrame(width: nat, height: nat, x: nat, y: nat)
    requires x < width && y < height
    ensures Offset(width, x, y) + 3 < Stride * Area(width, height)
  {
    AreaMonotone(width, y + 1, height);
  }

  /** The glyph printed for pixel `(x, y)`: it reads red, green and blue at offsets 0, 1, 2
      of the pixel and never the alpha byte at offset 3. */
  function PixelGlyph(data: seq<byte>, width: nat, height: nat, x: nat, y: nat): char
    requires InFrame(data, width, height) && x < width && y < height
  {
    OffsetInFrame(width, height, x, y);
    var o := Offset(width, x, y);
    Glyph(data[o], data[o + 1], data[o + 2])
  }

  /** The first `n` glyphs of row `y`, left to right. */
  function RowGlyphs(data: seq<byte>, width: nat, height: nat, y: nat, n: nat): (row: string)
    requires InFrame(data, width, height) && n <= width && y < height
    ensures |row| == n
    ensures forall x | 0 <= x < n :: row[x] == PixelGlyph(data, width, height, x, y)
  {
    if n == 0 then "" else RowGlyphs(data, width, height, y, n - 1) + [PixelGlyph(data, width, height, n - 1, y)]
  }

  /** The first `k` rows of the picture, top to bottom, each a full row of glyphs. */
  function PixelRows(data: seq<byte>, width: nat, height: nat, k: nat): (rows: seq<string>)
    requires InFrame(data, width, height) && k <= height
    ensures |rows| == k && Uniform(rows, width)
    ensures forall y, x | 0 <= y < k && 0 <= x < width :: rows[y][x] == PixelGlyph(data, width, height, x, y)
  {
    if k == 0 then [] else PixelRows(data, width, height, k - 1) + [RowGlyphs(data, width, height, k - 1, width)]
  }

  /** The string the component shows for an image of natural size `W` x `H` drawn at `width`
      columns (60 when the caller gives none), given the canvas bytes of the scaled picture. */
  function AsciiArt(naturalWidth: nat, naturalHeight: nat, width: nat, data: seq<byte>): string
    requires naturalWidth > 0
    requires InFrame(data, width, TargetHeight(naturalWidth, naturalHeight, width))
  {
    var height := TargetHeight(naturalWidth, naturalHeight, width);
    JoinLines(PixelRows(data, width, height, height))
  }

  /** The component's nested loop: rows top to bottom, pixels left to right, a newline after
      every row. */
  method Render(naturalWidth: nat, naturalHeight: nat, width: nat, data: seq<byte>) returns (art: string)
    requires naturalWidth > 0
    requires InFrame(data, width, TargetHeight(naturalWidth, naturalHeight, width))
    ensures art == AsciiArt(naturalWidth, naturalHeight, width, data)
  {
    var height := TargetHeight(naturalWidth, naturalHeight, width);
    art := "";
    var y := 0;
    while y < height
      invariant y <= height
      invariant art == JoinLines(PixelRows(data, width, height, y))
    {
      var x := 0;
      var row := "";
      while x < width
        invariant x <= width
        invariant row == RowGlyphs(data, width, height, y, x)
      {
        var o := (y * width + x) * Stride;
        AreaIsProduct(width, y);
        OffsetInFrame(width, height, x, y);
        var r: int := data[o];
        var g: int := data[o + 1];
        var b: int := data[o + 2];
        var charIndex := (12 * (2126 * r + 7152 * g + 722 * b)) / 2550000;
        row := row + [Ramp[charIndex]];
        x := x + 1;
      }
      JoinLinesSnoc(PixelRows(data, width, height, y), row);
      art := art + row + "\n";
      y := y + 1;
    }
  }

  /** The rendered string has `height * (width + 1)` characters: `height` rows of `width`
      glyphs, each row closed by a newline. */
  lemma ArtLength(naturalWidth: nat, naturalHeight: nat, width: nat, data: seq<byte>)
    requires naturalWidth > 0
    requires InFrame(data, width, TargetHeight(naturalWidth, naturalHeight, width))
    ensures |AsciiArt(naturalWidth, naturalHeight, width, data)|
            == TargetHeight(naturalWidth, naturalHeight, width) * (width + 1)
  {
    var height := TargetHeight(naturalWidth, naturalHeight, width);
    JoinLinesLength(PixelRows(data, width, height, height), width);
    AreaIsProduct(width + 1, height);
  }

  /** Row-major layout of the rendered string: the glyph of pixel `(x, y)` sits at
      `y * (width + 1) + x`, and the newline closing row `y` at `y * (width + 1) + width`. */
  lemma ArtAt(naturalWidth: nat, naturalHeight: nat, width: nat, data: seq<byte>, x: nat, y: nat)
    requires naturalWidth > 0
    requires InFrame(data, width, TargetHeight(naturalWidth, naturalHeight, width))
    requires x < width && y < TargetHeight(naturalWidth, naturalHeight, width)
    ensures var art := AsciiArt(naturalWidth, naturalHeight, width, data);
            && 0 <= y * (width + 1) + x < y * (width + 1) + width < |art|
            && art[y * (width + 1) + x] == PixelGlyph(data, width, TargetHeight(naturalWidth, naturalHeight, width), x, y)
            && art[y * (width + 1) + width] == '\n'
  {
    PictureAt(data, width, TargetHeight(naturalWidth, naturalHeight, width), x, y);
  }

  /** `ArtAt` for a canvas of any height. */
  lemma PictureAt(data: seq<byte>, width: nat, height: nat, x: nat, y: nat)
    requires InFrame(data, width, height) && x < width && y < height
    ensures var art := JoinLines(PixelRows(data, width, height, height));
            && 0 <= y * (width + 1) + x < y * (width + 1) + width < |art|
            && art[y * (width + 1) + x] == PixelGlyph(data, width, height, x, y)
            && art[y * (width + 1) + width] == '\n'
  {
    var rows := PixelRows(data, width, height, height);
    JoinLinesLayout(rows, width, y, x);
    assert rows[y][x] == PixelGlyph(data, width, height, x, y);
  }

  /** The loop's result on a given buffer is the empty string exactly when the canvas has no
      rows. (In the browser a canvas with no rows makes `getImageData` throw before the loop,
      so the component keeps its placeholder text instead.) */
  lemma EmptyIffNoRows(naturalWidth: nat, naturalHeight: nat, width: nat, data: seq<byte>)
    requires naturalWidth > 0
    requires InFrame(data, width, TargetHeight(naturalWidth, naturalHeight, width))
    ensures AsciiArt(naturalWidth, naturalHeight, width, data) == ""
            <==> naturalHeight * width < 2 * naturalWidth
  {
    NoRowsWhenFlat(naturalWidth, naturalHeight, width);
    var height := TargetHeight(naturalWidth, naturalHeight, width);
    JoinLinesLength(PixelRows(data, width, height, height), width);
  }

  /** Every character of the output is a newline or a ramp glyph. */
  lemma OnlyRampGlyphs(naturalWidth: nat, naturalHeight: nat, width: nat, data: seq<byte>)
    requires naturalWidth > 0
    requires InFrame(data, width, TargetHeight(naturalWidth, naturalHeight, width))
    ensures forall i | 0 <= i < |AsciiArt(naturalWidth, naturalHeight, width, data)| ::
              AsciiArt(naturalWidth, naturalHeight, width, data)[i] in (set c | c in Ramp) + {'\n'}
  {
    var height := TargetHeight(naturalWidth, naturalHeight, width);
    JoinLinesAlphabet(PixelRows(data, width, height, height), set c | c in Ramp);
  }

  /** Every pixel of the buffer has colour `(r, g, b)`, whatever its alpha. */
  predicate SingleColour(data: seq<byte>, width: nat, height: nat, r: byte, g: byte, b: byte)
    requires InFrame(data, width, height)
  {
    forall x, y | 0 <= x < width && 0 <= y < height ::
      OffsetInFrame(width, height, x, y);
      data[Offset(width, x, y)] == r && data[Offset(width, x, y) + 1] == g && data[Offset(width, x, y) + 2] == b
  }

  /** A single-colour picture renders as one glyph repeated, for instance all '@' when black
      (see `BlackIsDensest`). */
  lemma SingleColourArt(naturalWidth: nat, naturalHeight: nat, width: nat, data: seq<byte>, r: byte, g: byte, b: byte)
    requires naturalWidth > 0
    requires InFrame(data, width, TargetHeight(naturalWidth, naturalHeight, width))
    requires SingleColour(data, width, TargetHeight(naturalWidth, naturalHeight, width), r, g, b)
    ensures forall i | 0 <= i < |AsciiArt(naturalWidth, naturalHeight, width, data)| ::
              AsciiArt(naturalWidth, naturalHeight, width, data)[i] in {Glyph(r, g, b), '\n'}
  {
    var height := TargetHeight(naturalWidth, naturalHeight, width);
    var rows := PixelRows(data, width, height, height);
    forall y, x | 0 <= y < |rows| && 0 <= x < |rows[y]|
      ensures rows[y][x] in {Glyph(r, g, b)}
    {
      OffsetInFrame(width, height, x, y);
    }
    JoinLinesAlphabet(rows, {Glyph(r, g, b)});
  }

  /** Only the colour channels matter: two buffers that agree everywhere except possibly on
      alpha bytes render the same string. */
  lemma AlphaIgnored(naturalWidth: nat, naturalHeight: nat, width: nat, d1: seq<byte>, d2: seq<byte>)
    requires naturalWidth > 0
    requires InFrame(d1, width, TargetHeight(naturalWidth, naturalHeight, width))
    requires |d2| == |d1|
    requires forall i | 0 <= i < |d1| && i % 4 != 3 :: d1[i] == d2[i]
    ensures AsciiArt(naturalWidth, naturalHeight, width, d1) == AsciiArt(naturalWidth, naturalHeight, width, d2)
  {
    var height := TargetHeight(naturalWidth, naturalHeight, width);
    var rows1 := PixelRows(d1, width, height, height);
    var rows2 := PixelRows(d2, width, height, height);
    forall y | 0 <= y < height
      ensures rows1[y] == rows2[y]
    {
      forall x | 0 <= x < width
        ensures rows1[y][x] == rows2[y][x]
      {
        PixelGlyphIgnoresAlpha(width, height, d1, d2, x, y);
      }
    }
    assert rows1 == rows2;
  }

  /** One pixel's glyph depends on its colour bytes only. */
  lemma PixelGlyphIgnoresAlpha(width: nat, height: nat, d1: seq<byte>, d2: seq<byte>, x: nat, y: nat)
    requires InFrame(d1, width, height) && |d2| == |d1| && x < width && y < height
    requires forall i | 0 <= i < |d1| && i % 4 != 3 :: d1[i] == d2[i]
    ensures PixelGlyph(d1, width, height, x, y) == PixelGlyph(d2, width, height, x, y)
  {
    OffsetInFrame(width, height, x, y);
    var k := Area(width, y) + x;
    assert Offset(width, x, y) == 4 * k;
    ColourChannels(k);
  }

  /** The red, green and blue bytes of a pixel are never at an alpha position. */
  lemma ColourChannels(k: nat)
    ensures (4 * k) % 4 == 0 && (4 * k + 1) % 4 == 1 && (4 * k + 2) % 4 == 2
  {
  }
}

=== FILE: chat_interface.dfy ===
/** The chat view's send handler (components/ChatInterface.tsx): the guard, the render-command
    classification, the two messages it files, and the reply it builds, either streamed from
    the remote chat or taken from the image generator. */
module ChatInterface {
  import opened Types
  import opened Text
  import opened Store
  import GeminiService

  /** The persona a session speaks as: its own when the catalogue knows it, the default
      persona otherwise, and none without a session. */
  function PersonaFor(session: Option<Session>): (p: Option<Persona>)
    ensures session.None? <==> p.None?
    ensures session.Some? && session.value.personaId in Personas ==> p == Some(Personas[session.value.personaId])
    ensures session.Some? && session.value.personaId !in Personas ==> p == Some(Personas[DefaultPersonaId])
    ensures p.Some? ==> p.value.id in Personas && Personas[p.value.id] == p.value
  {
    match session
    case None => None
    case Some(x) => Some(if x.personaId in Personas then Personas[x.personaId] else Personas[DefaultPersonaId])
  }

  /** A (trimmed) input asks for a picture when it starts with one of the two commands and a space. */
  predicate IsRenderCommand(t: string) {
    StartsWith(t, "/render ") || StartsWith(t, "/imagine ")
  }

  /** The command word the prompt-extraction pattern removes, with the whitespace that must follow it. */
  predicate CommandAt(t: string, word: string) {
    StartsWith(t, word) && |word| < |t| && IsSpace(t[|word|])
  }

  /** Removing a leading `/render` or `/imagine` and the whole whitespace run after it; an input
      the pattern does not match comes back unchanged. */
  function StripCommand(t: string): (p: string)
    ensures |p| <= |t| && p == t[|t| - |p|..]
    ensures |p| < |t| <==> CommandAt(t, "/render") || CommandAt(t, "/imagine")
    ensures CommandAt(t, "/render") ==>
              |p| <= |t| - 8 && forall i | 7 <= i < |t| - |p| :: IsSpace(t[i])
    ensures CommandAt(t, "/imagine") ==>
              |p| <= |t| - 9 && forall i | 8 <= i < |t| - |p| :: IsSpace(t[i])
    ensures |p| < |t| ==> p == [] || !IsSpace(p[0])
  {
    if CommandAt(t, "/render") then TrimStart(t[7..])
    else if CommandAt(t, "/imagine") then TrimStart(t[8..])
    else t
  }

  /** A render command whose last character is not whitespace leaves a prompt: a non-empty
      tail of it that does not start with whitespace. */
  lemma {:induction false} PromptOfTrimmedCommand(t: string)
    requires IsRenderCommand(t) && !IsSpace(t[|t| - 1])
    ensures var p := StripCommand(t);
            && 0 < |p| < |t| && p == t[|t| - |p|..] && !IsSpace(p[0])
  {
    var n := if StartsWith(t, "/render ") then 7 else 8;
    if StartsWith(t, "/render ") {
      assert t[..8] == "/render ";
      assert t[..7] == "/render";
      assert CommandAt(t, "/render");
    } else {
      assert t[..9] == "/imagine ";
      assert t[..8] == "/imagine";
      assert t[1] == 'i';
      assert !CommandAt(t, "/render");
      assert CommandAt(t, "/imagine");
    }
    var rest := t[n..];
    assert StripCommand(t) == TrimStart(rest);
    assert !IsSpace(rest[|rest| - 1]);
  }

  /** Every render command leaves a prompt: a non-empty tail of the trimmed input that neither
      starts nor ends with whitespace. */
  lemma PromptOfCommand(input: string)
    requires IsRenderCommand(Trim(input))
    ensures var t := Trim(input);
            var p := StripCommand(t);
            && 0 < |p| < |t| && p == t[|t| - |p|..]
            && !IsSpace(p[0]) && !IsSpace(p[|p| - 1])
  {
    var t := Trim(input);
    PromptOfTrimmedCommand(t);
    var p := StripCommand(t);
    assert p[|p| - 1] == t[|t| - 1];
  }

  /** The `Date.now()` readings of one send: the user message's id and timestamp, and the
      placeholder's id and timestamp. */
  datatype SendClock = SendClock(userId: nat, userTime: int, botId: nat, botTime: int)

  datatype Reply = ChatReply | RenderReply(prompt: string)

  /** What a send does before any reply arrives: nothing, or two messages to file and the kind of reply. */
  datatype SendPlan = Ignored | Accepted(user: Message, placeholder: Message, reply: Reply)

  const RenderPrefix: string := "[INITIATING_VISUAL_SYNTHESIS]\nPROMPT: "
  const RenderSuffix: string := "\nALLOCATING_GPU_CYCLES..."

  /** The guard and message construction of `handleSendMessage`. */
  function PlanSend(input: string, typing: bool, session: Option<Session>, clk: SendClock): (p: SendPlan)
    ensures p.Accepted? <==> Trim(input) != "" && !typing && session.Some?
    ensures p.Accepted? ==>
              && p.user == Message(Decimal(clk.userId), User, Trim(input), clk.userTime, None, None)
              && p.placeholder.id == "bot-" + Decimal(clk.botId)
              && p.placeholder.role == Model && p.placeholder.timestamp == clk.botTime
              && p.placeholder.image == None && p.placeholder.isAscii == None
              && p.user.id != p.placeholder.id
              && (p.reply.RenderReply? <==> IsRenderCommand(Trim(input)))
              && (p.reply.ChatReply? ==> p.placeholder.content == "")
              && (p.reply.RenderReply? ==>
                    && p.reply.prompt == StripCommand(Trim(input))
                    && p.placeholder.content == RenderPrefix + Upper(p.reply.prompt) + RenderSuffix)
  {
    var t := Trim(input);
    if t == "" || typing || session.None? || PersonaFor(session).None? then Ignored
    else
      var user := Message(Decimal(clk.userId), User, t, clk.userTime, None, None);
      var botId := "bot-" + Decimal(clk.botId);
      assert user.id[0] != botId[0];
      if IsRenderCommand(t) then
        var prompt := StripCommand(t);
        Accepted(user, Message(botId, Model, RenderPrefix + Upper(prompt) + RenderSuffix, clk.botTime, None, None),
                 RenderReply(prompt))
      else
        Accepted(user, Message(botId, Model, "", clk.botTime, None, None), ChatReply)
  }

  const RenderDone: string := "[VISUAL_BUFFER_ESTABLISHED] Source: Neural_Engine_v2.5\nDeciphering stream..."
  const RenderFailed: string := "[RENDER_ERROR]: SYNTHESIS_FAILED. Neural link timed out."

  /** The placeholder's final text for a render command, given what the image generator returned. */
  function RenderText(image: Option<string>): (t: string)
    ensures t == RenderDone <==> Truthy(image)
    ensures t == RenderFailed <==> !Truthy(image)
  {
    if Truthy(image) then RenderDone else RenderFailed
  }

  /** Streaming: after each chunk the placeholder shows everything received so far. The result
      is the same as one update with the whole concatenation, or nothing without chunks. */
  method StreamReply(s: AppState, botId: string, chunks: seq<string>) returns (r: AppState)
    ensures |chunks| == 0 ==> r == s
    ensures |chunks| > 0 ==> r == UpdateBotMessage(s, botId, Concat(chunks), None)
  {
    r := s;
    var fullResponse := "";
    var k := 0;
    while k < |chunks|
      invariant 0 <= k <= |chunks|
      invariant fullResponse == Concat(chunks[..k])
      invariant k == 0 ==> r == s
      invariant k > 0 ==> r == UpdateBotMessage(s, botId, fullResponse, None)
    {
      assert chunks[..k + 1][..k] == chunks[..k];
      var previous := fullResponse;
      fullResponse := fullResponse + chunks[k];
      if k > 0 {
        UpdateBotMessageOverwrite(s, botId, previous, fullResponse, None);
      }
      r := UpdateBotMessage(r, botId, fullResponse, None);
      k := k + 1;
    }
    assert chunks[..k] == chunks;
  }

  /** Each streamed update shows a prefix-extension of the one before. */
  lemma StreamGrows(chunks: seq<string>, k: nat)
    requires k < |chunks|
    ensures StartsWith(Concat(chunks[..k + 1]), Concat(chunks[..k]))
  {
    ConcatPrefix(chunks[..k + 1], k);
    assert chunks[..k + 1][..k] == chunks[..k];
  }

  /** The state after the two messages are filed and the typing flag is raised. */
  function Pending(s: AppState, user: Message, placeholder: Message): (r: AppState)
    requires Truthy(s.active)
    ensures r.history.Keys == s.history.Keys + {s.active.value}
    ensures r.history[s.active.value] == HistoryOf(s.history, s.active.value) + [user, placeholder]
    ensures forall k | k in s.history && k != s.active.value :: r.history[k] == s.history[k]
    ensures r.sessions == s.sessions && r.active == s.active && r.typing
    ensures r.userName == s.userName && r.themeColor == s.themeColor
  {
    var a := s.active.value;
    var s1 := NewMessage(s, user).(typing := true);
    var s2 := NewMessage(s1, placeholder);
    assert HistoryOf(s1.history, a) == HistoryOf(s.history, a) + [user];
    assert HistoryOf(s.history, a) + [user] + [placeholder] == HistoryOf(s.history, a) + [user, placeholder];
    s2
  }

  /** An update aimed at the placeholder leaves the user message before it alone and puts the
      new text into the placeholder. */
  lemma UpdateHitsPlaceholder(before: seq<Message>, user: Message, placeholder: Message,
                              content: string, image: Option<string>)
    requires user.id != placeholder.id
    ensures var u := UpdateMessages(before + [user, placeholder], placeholder.id, content, image);
            && |u| == |before| + 2
            && u[|before|] == user
            && u[|before| + 1].id == placeholder.id && u[|before| + 1].role == placeholder.role
            && u[|before| + 1].content == content
            && (Truthy(image) ==> u[|before| + 1].image == image)
            && (forall i | 0 <= i < |before| && before[i].id != placeholder.id :: u[i] == before[i])
  {
    var l := before + [user, placeholder];
    assert l[|before|] == user && l[|before| + 1] == placeholder;
    assert forall i | 0 <= i < |before| :: l[i] == before[i];
  }

  /** `handleSendMessage` from the press of the send button to the lowering of the typing flag.
      The view exists only while a truthy session id is active; `run` is what the remote chat
      stream does and `gen` what awaiting the image generator did. A throw there is not caught:
      the handler stops with the placeholder pending and the typing flag raised. */
  method HandleSendMessage<H>(s: AppState, cache: map<string, H>, input: string, clk: SendClock,
                              create: GeminiService.ChatConfig -> H, run: GeminiService.StreamRun,
                              gen: Generated)
    returns (r: AppState, cache': map<string, H>)
    requires Truthy(s.active)
    ensures var plan := PlanSend(input, s.typing, CurrentSession(s), clk);
            plan.Ignored? ==> r == s && cache' == cache
    ensures var plan := PlanSend(input, s.typing, CurrentSession(s), clk);
            var a := s.active.value;
            var before := HistoryOf(s.history, a);
            plan.Accepted? ==>
              && r.history.Keys == s.history.Keys + {a}
              && |r.history[a]| == |before| + 2
              && r.history[a][|before|] == plan.user
              && r.history[a][|before| + 1].id == plan.placeholder.id
              && r.history[a][|before| + 1].role == Model
              && (plan.reply.ChatReply? ==>
                    r.history[a][|before| + 1].content == Concat(GeminiService.Yields(run)))
              && (plan.reply.RenderReply? && gen.Returned? ==>
                    r.history[a][|before| + 1].content == RenderText(gen.image))
              && (plan.reply.RenderReply? && gen.Returned? && Truthy(gen.image) ==>
                    r.history[a][|before| + 1].image == gen.image)
              && (plan.reply.RenderReply? && gen.Threw? ==> r.history[a][|before| + 1] == plan.placeholder)
              && (forall i | 0 <= i < |before| && before[i].id != plan.placeholder.id ::
                    r.history[a][i] == before[i])
              && (forall k | k in s.history && k != a :: r.history[k] == s.history[k])
              && r.sessions == s.sessions && r.active == s.active
              && (r.typing <==> plan.reply.RenderReply? && gen.Threw?)
    ensures var plan := PlanSend(input, s.typing, CurrentSession(s), clk);
            plan.Accepted? && plan.reply.ChatReply? ==>
              cache' == GeminiService.GetChatSession(cache, PersonaFor(CurrentSession(s)).value,
                                                     s.active.value, HistoryOf(s.history, s.active.value),
                                                     create).cache
    ensures var plan := PlanSend(input, s.typing, CurrentSession(s), clk);
            plan.Accepted? && plan.reply.RenderReply? ==> cache' == cache
  {
    var session := CurrentSession(s);
    var plan := PlanSend(input, s.typing, session, clk);
    if plan.Ignored? {
      return s, cache;
    }
    var a := s.active.value;
    var before := HistoryOf(s.history, a);
    var p := Pending(s, plan.user, plan.placeholder);
    var botId := plan.placeholder.id;
    var list := before + [plan.user, plan.placeholder];
    assert HistoryOf(p.history, a) == list;
    match plan.reply {
      case RenderReply(_) =>
        cache' := cache;
        if gen.Threw? {
          assert list[|before|] == plan.user && list[|before| + 1] == plan.placeholder;
          assert forall i | 0 <= i < |before| :: list[i] == before[i];
          return p, cache';
        }
        var image := gen.image;
        var img := if Truthy(image) then image else None;
        r := UpdateBotMessage(p, botId, RenderText(image), img);
        UpdateHitsPlaceholder(before, plan.user, plan.placeholder, RenderText(image), img);
      case ChatReply =>
        var outcome := GeminiService.SendMessageStream(cache, session.value.id, PersonaFor(session).value,
                                                       before, create, run);
        cache' := outcome.0;
        r := StreamReply(p, botId, outcome.1);
        if |outcome.1| == 0 {
          assert r.history[a] == list;
          assert list[|before|] == plan.user && list[|before| + 1] == plan.placeholder;
          assert forall i | 0 <= i < |before| :: list[i] == before[i];
        } else {
          UpdateHitsPlaceholder(before, plan.user, plan.placeholder, Concat(outcome.1), None);
        }
    }
    r := r.(typing := false);
  }
}

=== FILE: gemini_service.dfy ===
/** The session manager of services/geminiService.ts: one remote chat handle per session id,
    created lazily from the session's message history, and the chunk stream it republishes.

    The SDK is opaque. A chat handle is any type `H`, and creating one is a function `create`
    from the chat configuration to a handle, supplied by the caller. */
module GeminiService {
  import opened Types
  import opened Text

  /** The model every chat is opened against. */
  const ModelName: string := "gemini-3-flash-preview"

  /** One text part of a remote content entry. */
  datatype Part = Part(text: string)

  /** A remote history entry: a role name and its parts. */
  datatype Content = Content(role: string, parts: seq<Part>)

  /** What a chat is opened with: the model, the persona it speaks as and the prior history. */
  datatype ChatConfig = ChatConfig(model: string, persona: Persona, history: seq<Content>)

  /** The remote API knows two roles: the user's turns are "user", everything else is "model". */
  function RoleName(role: Role): (name: string)
    ensures name == "user" <==> role == User
    ensures name == "user" || name == "model"
  {
    if role == User then "user" else "model"
  }

  /** One message as a remote history entry: its role and a single part holding its text. */
  function ToContent(m: Message): (c: Content)
    ensures c.role == RoleName(m.role)
    ensures |c.parts| == 1 && c.parts[0].text == m.content
  {
    Content(RoleName(m.role), [Part(m.content)])
  }

  /** The local history in the remote format: same length, same order, entry by entry. */
  function ToHistory(history: seq<Message>): (r: seq<Content>)
    ensures |r| == |history|
    ensures forall i | 0 <= i < |history| :: r[i] == ToContent(history[i])
  {
    if |history| == 0 then [] else ToHistory(history[..|history| - 1]) + [ToContent(history[|history| - 1])]
  }

  /** Conversion commutes with concatenation, so it preserves order. */
  lemma ToHistoryAppend(a: seq<Message>, b: seq<Message>)
    ensures ToHistory(a + b) == ToHistory(a) + ToHistory(b)
  {
  }

  /** The result of `getChatSession`: the handle and the cache afterwards. */
  datatype Lookup<H> = Lookup(chat: H, cache: map<string, H>)

  /** Get-or-create: a cached handle is returned as it is and the persona and history are
      ignored; otherwise a chat is opened from the converted history and cached under the id. */
  function GetChatSession<H>(cache: map<string, H>, persona: Persona, sessionId: string,
                             history: seq<Message>, create: ChatConfig -> H): (r: Lookup<H>)
    ensures sessionId in r.cache && r.chat == r.cache[sessionId]
    ensures sessionId in cache ==> r.chat == cache[sessionId] && r.cache == cache
    ensures sessionId !in cache ==> r.chat == create(ChatConfig(ModelName, persona, ToHistory(history)))
    ensures r.cache.Keys == cache.Keys + {sessionId}
    ensures forall k | k in cache :: r.cache[k] == cache[k]
  {
    if sessionId in cache then
      Lookup(cache[sessionId], cache)
    else
      var chat := create(ChatConfig(ModelName, persona, ToHistory(history)));
      Lookup(chat, cache[sessionId := chat])
  }

  /** A second lookup under the same id returns the same handle and changes nothing, whatever
      persona and history it is given. */
  lemma GetChatSessionStable<H>(cache: map<string, H>, p1: Persona, p2: Persona, sessionId: string,
                                h1: seq<Message>, h2: seq<Message>, create: ChatConfig -> H)
    ensures var first := GetChatSession(cache, p1, sessionId, h1, create);
            GetChatSession(first.cache, p2, sessionId, h2, create) == first
  {
  }

  /** `resetSession`: forget the handle of one session; other sessions keep theirs, and
      resetting an unknown id changes nothing. */
  function ResetSession<H>(cache: map<string, H>, sessionId: string): (r: map<string, H>)
    ensures r.Keys == cache.Keys - {sessionId}
    ensures forall k | k in r :: r[k] == cache[k]
    ensures sessionId !in cache ==> r == cache
  {
    map k | k in cache && k != sessionId :: cache[k]
  }

  /** After a reset the next lookup opens a new chat from the history it is given then. */
  lemma ResetThenGet<H>(cache: map<string, H>, persona: Persona, sessionId: string,
                        history: seq<Message>, create: ChatConfig -> H)
    ensures GetChatSession(ResetSession(cache, sessionId), persona, sessionId, history, create).chat
            == create(ChatConfig(ModelName, persona, ToHistory(history)))
  {
  }

  /** What was thrown when the stream failed: an `Error` with its message, or anything else. */
  datatype Failure = ErrorThrown(message: string) | OtherThrown

  /** What the remote stream did: the chunks it delivered, whose text may be missing, and
      whether it then failed. Opening the chat or the stream failing is a failure after no chunks. */
  datatype StreamRun = StreamRun(chunks: seq<Option<string>>, failure: Option<Failure>)

  const FailurePrefix: string := "\n[NEURAL_LINK_FAILURE]: "

  /** The last chunk yielded after a failure. */
  function FailureText(f: Failure): (t: string)
    ensures StartsWith(t, FailurePrefix)
    ensures f.ErrorThrown? ==> t[|FailurePrefix|..] == f.message
    ensures f.OtherThrown? ==> t[|FailurePrefix|..] == "UNEXPECTED_DISCONNECT"
  {
    match f
    case ErrorThrown(message) => FailurePrefix + message
    case OtherThrown => FailurePrefix + "UNEXPECTED_DISCONNECT"
  }

  /** The strings `sendMessageStream` yields: each chunk's text, or "" when it has none, and
      after a failure exactly one more string describing it. */
  function Yields(run: StreamRun): (ys: seq<string>)
    ensures |ys| == |run.chunks| + (if run.failure.Some? then 1 else 0)
    ensures forall i | 0 <= i < |run.chunks| :: ys[i] == run.chunks[i].GetOr("")
    ensures run.failure.Some? ==> ys[|ys| - 1] == FailureText(run.failure.value)
  {
    var texts := seq(|run.chunks|, i requires 0 <= i < |run.chunks| => run.chunks[i].GetOr(""));
    match run.failure
    case None => texts
    case Some(f) => texts + [FailureText(f)]
  }

  /** The whole reply text a reader accumulates ends with the failure notice when the stream
      failed, and is exactly the delivered texts otherwise. */
  lemma ReplyEndsWithFailure(run: StreamRun)
    requires run.failure.Some?
    ensures var reply := Concat(Yields(run));
            var tail := FailureText(run.failure.value);
            |tail| <= |reply| && reply[|reply| - |tail|..] == tail
  {
    var ys := Yields(run);
    assert Concat(ys) == Concat(ys[..|ys| - 1]) + ys[|ys| - 1];
  }

  /** `sendMessageStream`: look up (or open) the session's chat, then republish its stream.
      The handle cache afterwards and the yielded strings are returned. The cache gains a handle
      for the session, opened from the history given now unless one was cached already, and
      the yields are the chunk texts followed by at most one failure notice. */
  function SendMessageStream<H>(cache: map<string, H>, sessionId: string, persona: Persona,
                                history: seq<Message>, create: ChatConfig -> H, run: StreamRun)
    : (r: (map<string, H>, seq<string>))
    ensures r.0.Keys == cache.Keys + {sessionId}
    ensures forall k | k in cache :: r.0[k] == cache[k]
    ensures sessionId !in cache ==> r.0[sessionId] == create(ChatConfig(ModelName, persona, ToHistory(history)))
    ensures |r.1| == |run.chunks| + (if run.failure.Some? then 1 else 0)
    ensures forall i | 0 <= i < |run.chunks| :: r.1[i] == run.chunks[i].GetOr("")
    ensures run.failure.Some? ==> r.1[|r.1| - 1] == FailureText(run.failure.value)
  {
    (GetChatSession(cache, persona, sessionId, history, create).cache, Yields(run))
  }
}

=== FILE: store.dfy ===
/** The client's state store (App.tsx): the session list, the message history keyed by session
    id, the active session, the typing flag and the user's settings, with every handler written
    as a pure transition from the old state to the new one.

    Every `Date.now()` reading is a parameter; nothing assumes two readings differ. */
module Store {
  import opened Types
  import opened Text
  import GeminiService

  datatype AppState = AppState(
    sessions: seq<Session>,
    history: map<string, seq<Message>>,
    active: Option<string>,
    typing: bool,
    userName: string,
    themeColor: string)

  const DefaultUserName: string := "Netrunner_Local"
  const DefaultThemeColor: string := "#00ff00"

  /** The messages filed under `id`, or none: `history[id] || []`. */
  function HistoryOf(history: map<string, seq<Message>>, id: string): seq<Message>
  {
    if id in history then history[id] else []
  }

  // ---------------------------------------------------------------- start-up

  /** One built-in session per channel, in channel order. The clock is read once per channel,
      so channel `i` is stamped with reading `nows[i]`. */
  function ChannelSessions(channels: seq<Channel>, nows: seq<int>): (r: seq<Session>)
    requires |nows| == |channels|
    ensures |r| == |channels|
    ensures forall i | 0 <= i < |channels| ::
              && r[i].id == channels[i].id && r[i].name == channels[i].name
              && r[i].personaId == channels[i].persona.id && r[i].lastUpdate == nows[i] && r[i].isStatic
  {
    if |channels| == 0 then []
    else ChannelSessions(channels[..|channels| - 1], nows[..|nows| - 1])
         + [Session(channels[|channels| - 1].id, channels[|channels| - 1].name,
                    channels[|channels| - 1].persona.id, nows[|nows| - 1], true)]
  }

  /** The state of a first start, when nothing was saved: the channel sessions, no messages,
      no active session, default settings. */
  function InitialState(nows: seq<int>): (s: AppState)
    requires |nows| == |Channels|
    ensures |s.sessions| == |Channels|
    ensures forall i | 0 <= i < |s.sessions| :: s.sessions[i].isStatic && s.sessions[i].personaId in Personas
    ensures forall i, j | 0 <= i < j < |s.sessions| :: s.sessions[i].id != s.sessions[j].id
    ensures s.history == map[] && s.active == None && !s.typing
  {
    AppState(ChannelSessions(Channels, nows), map[], None, false, DefaultUserName, DefaultThemeColor)
  }

  /** The glow colour derived from the theme colour: a hex colour gets the alpha suffix "66",
      anything else is used as it is. */
  function Glow(color: string): (g: string)
    ensures StartsWith(g, color)
    ensures |g| == |color| + 2 <==> StartsWith(color, "#")
    ensures |g| == |color| <==> !StartsWith(color, "#")
    ensures StartsWith(color, "#") ==> g[|color|..] == "66"
  {
    if StartsWith(color, "#") then color + "66" else color
  }

  /** The index of the first session with id `id`, or the length of the list when none has it. */
  function FirstWithId(sessions: seq<Session>, id: string): (i: nat)
    ensures i <= |sessions|
    ensures i < |sessions| ==> sessions[i].id == id
    ensures forall j | 0 <= j < i :: sessions[j].id != id
  {
    if |sessions| == 0 || sessions[0].id == id then 0 else 1 + FirstWithId(sessions[1..], id)
  }

  /** The session shown in the chat view: the first one whose id is the active id, if any. */
  function CurrentSession(s: AppState): (r: Option<Session>)
    ensures r.Some? ==> s.active == Some(r.value.id) && r.value in s.sessions
    ensures r.None? <==> s.active.None? || forall i | 0 <= i < |s.sessions| :: s.sessions[i].id != s.active.value
    ensures r.Some? ==> exists i | 0 <= i < |s.sessions| :: s.sessions[i] == r.value
                          && forall j | 0 <= j < i :: s.sessions[j].id != r.value.id
  {
    if s.active.None? then None
    else
      var i := FirstWithId(s.sessions, s.active.value);
      if i < |s.sessions| then Some(s.sessions[i]) else None
  }

  // ---------------------------------------------------------------- create

  /** The three `Date.now()` readings of `handleCreateSession`: the id, the session's
      `lastUpdate` and the greeting's timestamp. */
  datatype Stamps = Stamps(id: nat, created: int, greeted: int)

  function NewSessionId(clock: nat): string
  {
    "uplink-" + Decimal(clock)
  }

  const GreetingPrefix: string := "[NEURAL_LINK_ESTABLISHED] "

  /** The model's opening message in a new session. */
  function Greeting(sessionId: string, persona: Persona, time: int): (m: Message)
    ensures m.role == Model && m.id == "greet-" + sessionId && m.timestamp == time
    ensures StartsWith(m.content, GreetingPrefix + persona.name)
    ensures m.image == None && m.isAscii == None
  {
    Message("greet-" + sessionId, Model, GreetingPrefix + persona.name + " core online. Buffer ready.",
            time, None, None)
  }

  /** `handleCreateSession`: with a known persona, a new non-static session goes to the front,
      becomes active and gets a history of exactly one greeting; with an unknown persona
      nothing changes. */
  function CreateSession(s: AppState, personaId: string, st: Stamps): (r: AppState)
    ensures personaId !in Personas ==> r == s
    ensures personaId in Personas ==>
              var id := NewSessionId(st.id);
              && |r.sessions| == |s.sessions| + 1
              && r.sessions[1..] == s.sessions
              && r.sessions[0] == Session(id, "Link_" + Personas[personaId].name, personaId, st.created, false)
              && r.active == Some(id)
              && r.history.Keys == s.history.Keys + {id}
              && r.history[id] == [Greeting(id, Personas[personaId], st.greeted)]
              && (forall k | k in s.history && k != id :: r.history[k] == s.history[k])
    ensures r.typing == s.typing && r.userName == s.userName && r.themeColor == s.themeColor
  {
    if personaId !in Personas then s
    else
      var persona := Personas[personaId];
      var id := NewSessionId(st.id);
      s.(sessions := [Session(id, "Link_" + persona.name, personaId, st.created, false)] + s.sessions,
         active := Some(id),
         history := s.history[id := [Greeting(id, persona, st.greeted)]])
  }

  // ---------------------------------------------------------------- delete

  /** The sessions whose id is not `id`, in their original order. */
  function RemoveSessions(sessions: seq<Session>, id: string): (r: seq<Session>)
    ensures forall x :: x in r <==> x in sessions && x.id != id
    ensures |r| <= |sessions|
    ensures (forall i | 0 <= i < |sessions| :: sessions[i].id != id) ==> r == sessions
  {
    if |sessions| == 0 then []
    else
      var init := sessions[..|sessions| - 1];
      var last := sessions[|sessions| - 1];
      assert sessions == init + [last];
      var rest := RemoveSessions(init, id);
      if last.id == id then rest else rest + [last]
  }

  /** Filtering distributes over concatenation, so the survivors keep their relative order. */
  lemma {:induction false} RemoveSessionsAppend(a: seq<Session>, b: seq<Session>, id: string)
    ensures RemoveSessions(a + b, id) == RemoveSessions(a, id) + RemoveSessions(b, id)
  {
    if |b| > 0 {
      var n := |b|;
      assert (a + b)[..|a + b| - 1] == a + b[..n - 1];
      RemoveSessionsAppend(a, b[..n - 1], id);
    } else {
      assert a + b == a;
    }
  }

  /** `handleDeleteSession`, together with the chat-handle reset it triggers: every session with
      that id goes, its history key goes, the active session is cleared only if it was the
      deleted one, and the remote chat handle for it is forgotten. */
  function DeleteSession<H>(s: AppState, cache: map<string, H>, id: string): (r: (AppState, map<string, H>))
    ensures r.0.sessions == RemoveSessions(s.sessions, id)
    ensures forall x :: x in r.0.sessions <==> x in s.sessions && x.id != id
    ensures r.0.history.Keys == s.history.Keys - {id}
    ensures forall k | k in r.0.history :: r.0.history[k] == s.history[k]
    ensures s.active == Some(id) ==> r.0.active == None
    ensures s.active != Some(id) ==> r.0.active == s.active
    ensures r.1.Keys == cache.Keys - {id} && forall k | k in r.1 :: r.1[k] == cache[k]
    ensures r.0.typing == s.typing && r.0.userName == s.userName && r.0.themeColor == s.themeColor
  {
    var history := map k | k in s.history && k != id :: s.history[k];
    var active := if s.active == Some(id) then None else s.active;
    (s.(sessions := RemoveSessions(s.sessions, id), history := history, active := active),
     GeminiService.ResetSession(cache, id))
  }

  /** Deleting a freshly created session restores the sessions, the history and the chat
      handles, provided its id was not in use; no session is active afterwards. */
  lemma CreateThenDelete<H>(s: AppState, cache: map<string, H>, personaId: string, st: Stamps)
    requires personaId in Personas
    requires forall i | 0 <= i < |s.sessions| :: s.sessions[i].id != NewSessionId(st.id)
    requires NewSessionId(st.id) !in s.history && NewSessionId(st.id) !in cache
    ensures var r := DeleteSession(CreateSession(s, personaId, st), cache, NewSessionId(st.id));
            && r.0.sessions == s.sessions && r.0.history == s.history && r.0.active == None
            && r.1 == cache
  {
    var c := CreateSession(s, personaId, st);
    assert c.sessions == [c.sessions[0]] + s.sessions;
    DeleteUndoesPrepend(s, cache, c, NewSessionId(st.id));
  }

  /** Deleting a session that was put in front of the list, with a history key of its own,
      under an id nothing else used, gives back the sessions, the history and the handles. */
  lemma DeleteUndoesPrepend<H>(s: AppState, cache: map<string, H>, c: AppState, id: string)
    requires |c.sessions| > 0 && c.sessions[0].id == id && c.sessions == [c.sessions[0]] + s.sessions
    requires forall i | 0 <= i < |s.sessions| :: s.sessions[i].id != id
    requires c.history.Keys == s.history.Keys + {id} && id !in s.history && id !in cache
    requires forall k | k in s.history :: c.history[k] == s.history[k]
    requires c.active == Some(id)
    ensures var r := DeleteSession(c, cache, id);
            && r.0.sessions == s.sessions && r.0.history == s.history && r.0.active == None
            && r.1 == cache
  {
    var r := DeleteSession(c, cache, id);
    RemoveFront(c.sessions[0], s.sessions, id);
    assert r.0.history.Keys == s.history.Keys;
    assert forall k | k in s.history :: r.0.history[k] == s.history[k];
    assert r.1.Keys == cache.Keys;
    assert forall k | k in cache :: r.1[k] == cache[k];
  }

  /** Removing an id held only by the front session gives back the rest of the list. */
  lemma RemoveFront(front: Session, rest: seq<Session>, id: string)
    requires front.id == id
    requires forall i | 0 <= i < |rest| :: rest[i].id != id
    ensures RemoveSessions([front] + rest, id) == rest
  {
    RemoveSessionsAppend([front], rest, id);
    assert RemoveSessions([front], id) == [];
  }

  // ---------------------------------------------------------------- rename

  /** The sessions with every one whose id is `id` carrying the new name. */
  function RenameSessions(sessions: seq<Session>, id: string, name: string): (r: seq<Session>)
    ensures |r| == |sessions|
    ensures forall i | 0 <= i < |sessions| :: r[i] == sessions[i].(name := r[i].name)
    ensures forall i | 0 <= i < |sessions| && sessions[i].id == id :: r[i].name == name
    ensures forall i | 0 <= i < |sessions| && sessions[i].id != id :: r[i] == sessions[i]
  {
    seq(|sessions|, i requires 0 <= i < |sessions| =>
          if sessions[i].id == id then sessions[i].(name := name) else sessions[i])
  }

  /** `handleRenameSession`: only the session list changes. */
  function RenameSession(s: AppState, id: string, name: string): (r: AppState)
    ensures |r.sessions| == |s.sessions|
    ensures forall i | 0 <= i < |s.sessions| :: r.sessions[i].id == s.sessions[i].id
    ensures forall i | 0 <= i < |s.sessions| && s.sessions[i].id == id ::
              r.sessions[i] == s.sessions[i].(name := name)
    ensures forall i | 0 <= i < |s.sessions| && s.sessions[i].id != id :: r.sessions[i] == s.sessions[i]
    ensures r.history == s.history && r.active == s.active && r.typing == s.typing
    ensures r.userName == s.userName && r.themeColor == s.themeColor
  {
    s.(sessions := RenameSessions(s.sessions, id, name))
  }

  /** The last rename wins, and renaming an id no session has changes nothing. */
  lemma RenameOverwrites(s: AppState, id: string, first: string, second: string)
    ensures RenameSession(RenameSession(s, id, first), id, second) == RenameSession(s, id, second)
    ensures (forall i | 0 <= i < |s.sessions| :: s.sessions[i].id != id) ==> RenameSession(s, id, first) == s
  {
    var a := RenameSession(RenameSession(s, id, first), id, second).sessions;
    var b := RenameSession(s, id, second).sessions;
    assert forall i | 0 <= i < |a| :: a[i] == b[i];
    assert a == b;
    if forall i | 0 <= i < |s.sessions| :: s.sessions[i].id != id {
      assert RenameSession(s, id, first).sessions == s.sessions;
    }
  }

  // ---------------------------------------------------------------- append

  /** `handleNewMessage`: without a truthy active id nothing changes; otherwise the message is
      appended to the active session's list, which is created if it is missing. */
  function NewMessage(s: AppState, msg: Message): (r: AppState)
    ensures !Truthy(s.active) ==> r == s
    ensures Truthy(s.active) ==>
              var a := s.active.value;
              && r.history.Keys == s.history.Keys + {a}
              && r.history[a] == HistoryOf(s.history, a) + [msg]
              && (forall k | k in s.history && k != a :: r.history[k] == s.history[k])
    ensures r.sessions == s.sessions && r.active == s.active && r.typing == s.typing
    ensures r.userName == s.userName && r.themeColor == s.themeColor
  {
    if !Truthy(s.active) then s
    else
      var a := s.active.value;
      s.(history := s.history[a := HistoryOf(s.history, a) + [msg]])
  }

  // ---------------------------------------------------------------- update by id

  /** One message after an update aimed at `id`: a match takes the new content, and the new
      image only when a non-empty one is given. */
  function UpdateOne(m: Message, id: string, content: string, image: Option<string>): (r: Message)
    ensures r.id == m.id && r.role == m.role && r.timestamp == m.timestamp && r.isAscii == m.isAscii
    ensures m.id != id ==> r == m
    ensures m.id == id ==> r.content == content
    ensures m.id == id && Truthy(image) ==> r.image == image
    ensures !Truthy(image) ==> r.image == m.image
  {
    if m.id == id then m.(content := content, image := if Truthy(image) then image else m.image) else m
  }

  /** A message list after an update aimed at `id`: position by position. */
  function UpdateMessages(list: seq<Message>, id: string, content: string, image: Option<string>)
    : (r: seq<Message>)
    ensures |r| == |list|
    ensures forall i | 0 <= i < |list| :: r[i] == UpdateOne(list[i], id, content, image)
  {
    seq(|list|, i requires 0 <= i < |list| => UpdateOne(list[i], id, content, image))
  }

  /** The history after `handleUpdateBotMessage` as seen from a closure that captured `active`:
      nothing changes without a truthy active id; otherwise that session's list (or the empty
      list) is updated and written back, so the key exists afterwards. */
  function UpdateIn(history: map<string, seq<Message>>, active: Option<string>, id: string,
                    content: string, image: Option<string>): (r: map<string, seq<Message>>)
    ensures !Truthy(active) ==> r == history
    ensures Truthy(active) ==>
              && r.Keys == history.Keys + {active.value}
              && r[active.value] == UpdateMessages(HistoryOf(history, active.value), id, content, image)
              && (forall k | k in history && k != active.value :: r[k] == history[k])
  {
    if !Truthy(active) then history
    else history[active.value := UpdateMessages(HistoryOf(history, active.value), id, content, image)]
  }

  /** `handleUpdateBotMessage` as the chat view calls it: without a truthy active id nothing
      changes; otherwise the active session's list keeps its length and every message in it
      goes through the update, and no other session's list changes. */
  function UpdateBotMessage(s: AppState, id: string, content: string, image: Option<string>): (r: AppState)
    ensures !Truthy(s.active) ==> r == s
    ensures Truthy(s.active) ==>
              var a := s.active.value;
              && r.history.Keys == s.history.Keys + {a}
              && |r.history[a]| == |HistoryOf(s.history, a)|
              && (forall i | 0 <= i < |r.history[a]| ::
                    r.history[a][i] == UpdateOne(HistoryOf(s.history, a)[i], id, content, image))
              && (forall k | k in s.history && k != a :: r.history[k] == s.history[k])
    ensures r.sessions == s.sessions && r.active == s.active && r.typing == s.typing
    ensures r.userName == s.userName && r.themeColor == s.themeColor
  {
    s.(history := UpdateIn(s.history, s.active, id, content, image))
  }

  /** Updates aimed at one id overwrite each other: only the last content counts, and without
      an image the first update's image is the one kept. */
  lemma UpdateMessagesOverwrite(list: seq<Message>, id: string, c1: string, c2: string,
                                img: Option<string>)
    ensures UpdateMessages(UpdateMessages(list, id, c1, img), id, c2, None)
            == UpdateMessages(list, id, c2, img)
  {
    var a := UpdateMessages(UpdateMessages(list, id, c1, img), id, c2, None);
    var b := UpdateMessages(list, id, c2, img);
    assert forall i | 0 <= i < |list| :: a[i] == b[i];
  }

  /** The state-level form of `UpdateMessagesOverwrite`. */
  lemma {:induction false} UpdateBotMessageOverwrite(s: AppState, id: string, c1: string, c2: string,
                                                    img: Option<string>)
    ensures UpdateBotMessage(UpdateBotMessage(s, id, c1, img), id, c2, None)
            == UpdateBotMessage(s, id, c2, img)
  {
    if Truthy(s.active) {
      var a := s.active.value;
      UpdateMessagesOverwrite(HistoryOf(s.history, a), id, c1, c2, img);
      var h1 := UpdateIn(s.history, s.active, id, c1, img);
      assert HistoryOf(h1, a) == UpdateMessages(HistoryOf(s.history, a), id, c1, img);
      var x := UpdateIn(h1, s.active, id, c2, None);
      var y := UpdateIn(s.history, s.active, id, c2, img);
      assert x.Keys == y.Keys;
      assert forall k | k in x :: x[k] == y[k];
    }
  }

  /** An update aimed at an id no message in the active list has leaves that list as it is. */
  lemma UpdateAbsentId(list: seq<Message>, id: string, content: string, image: Option<string>)
    requires forall i | 0 <= i < |list| :: list[i].id != id
    ensures UpdateMessages(list, id, content, image) == list
  {
  }

  // ---------------------------------------------------------------- image generation

  /** What awaiting the image generator did: it returned an image or nothing, or it threw.
      Neither handler catches the throw, so everything after the `await` is skipped. */
  datatype Generated = Returned(image: Option<string>) | Threw

  /** Where `handleTriggerImageGen` files its placeholder. */
  datatype ImageTarget = UseActive(id: string) | AdoptFirst(id: string) | CreateFresh

  /** The active session if the active id is truthy, else the first listed session, else none. */
  function ImageGenTarget(s: AppState): (t: ImageTarget)
    ensures t.UseActive? <==> Truthy(s.active)
    ensures t.CreateFresh? <==> !Truthy(s.active) && |s.sessions| == 0
    ensures t.UseActive? ==> t.id == s.active.value
    ensures t.AdoptFirst? ==> |s.sessions| > 0 && t.id == s.sessions[0].id
  {
    if Truthy(s.active) then UseActive(s.active.value)
    else if |s.sessions| > 0 then AdoptFirst(s.sessions[0].id)
    else CreateFresh
  }

  const SynthesisDone: string := "[VISUAL_BUFFER_LOCKED] Stream decrypted."
  const SynthesisFailed: string := "[RENDER_ERROR]: SYNTHESIS_FAILURE."

  /** The placeholder `handleTriggerImageGen` appends while the picture is generated. */
  function ImagePlaceholder(clock: nat, prompt: string, time: int): (m: Message)
    ensures m.id == "bot-img-" + Decimal(clock) && m.role == Model && m.timestamp == time
    ensures StartsWith(m.content, "[INITIATING_SYNTHESIS]\nPROMPT: " + Upper(prompt))
    ensures m.image == None
  {
    Message("bot-img-" + Decimal(clock), Model,
            "[INITIATING_SYNTHESIS]\nPROMPT: " + Upper(prompt) + "\nPROCESSING...", time, None, None)
  }

  /** The state once the placeholder is filed under the target, which becomes active, and the
      typing flag is raised; the shared first half of both image-generation variants. */
  function ImageGenPending(s: AppState, target: string, placeholder: Message): (r: AppState)
    ensures r.active == Some(target) && r.typing
    ensures r.history.Keys == s.history.Keys + {target}
    ensures r.history[target] == HistoryOf(s.history, target) + [placeholder]
    ensures forall k | k in s.history && k != target :: r.history[k] == s.history[k]
    ensures r.sessions == s.sessions
  {
    s.(active := Some(target), typing := true,
       history := s.history[target := HistoryOf(s.history, target) + [placeholder]])
  }

  /** `handleTriggerImageGen` as written. The final update runs through `handleUpdateBotMessage`
      of the render that started the generation, so it is aimed at the active id captured
      then: when that was empty, the first session is adopted and the placeholder it receives
      is never updated. When the generator throws, the handler stops after filing the
      placeholder, with the typing flag still raised. */
  function ImageGenAsWritten(s: AppState, prompt: string, clock: nat, time: int,
                             gen: Generated, st: Stamps): (r: AppState)
    ensures ImageGenTarget(s).CreateFresh? ==> r == CreateSession(s, DefaultPersonaId, st)
    ensures !ImageGenTarget(s).CreateFresh? ==>
              var t := ImageGenTarget(s).id;
              && r.active == Some(t) && (r.typing <==> gen.Threw?) && r.sessions == s.sessions
              && r.history.Keys == s.history.Keys + {t}
              && |r.history[t]| == |HistoryOf(s.history, t)| + 1
              && r.history[t][|r.history[t]| - 1].id == "bot-img-" + Decimal(clock)
              && (forall k | k in s.history && k != t :: r.history[k] == s.history[k])
              && r.userName == s.userName && r.themeColor == s.themeColor
    ensures ImageGenTarget(s).AdoptFirst? || (!ImageGenTarget(s).CreateFresh? && gen.Threw?) ==>
              r.history[ImageGenTarget(s).id]
              == HistoryOf(s.history, ImageGenTarget(s).id) + [ImagePlaceholder(clock, prompt, time)]
  {
    match ImageGenTarget(s)
    case CreateFresh => CreateSession(s, DefaultPersonaId, st)
    case _ =>
      var t := ImageGenTarget(s).id;
      var placeholder := ImagePlaceholder(clock, prompt, time);
      var p := ImageGenPending(s, t, placeholder);
      match gen
      case Threw => p
      case Returned(image) =>
        var text := if Truthy(image) then SynthesisDone else SynthesisFailed;
        var img := if Truthy(image) then image else None;
        p.(history := UpdateIn(p.history, s.active, placeholder.id, text, img), typing := false)
  }

  /** `handleTriggerImageGen` with the final update aimed at the session the placeholder was
      filed under. A throwing generator still leaves the placeholder pending. */
  function ImageGenCorrected(s: AppState, prompt: string, clock: nat, time: int,
                             gen: Generated, st: Stamps): (r: AppState)
    ensures ImageGenTarget(s).CreateFresh? ==> r == CreateSession(s, DefaultPersonaId, st)
    ensures !ImageGenTarget(s).CreateFresh? ==>
              var t := ImageGenTarget(s).id;
              && r.active == Some(t) && (r.typing <==> gen.Threw?) && r.sessions == s.sessions
              && r.history.Keys == s.history.Keys + {t}
              && |r.history[t]| == |HistoryOf(s.history, t)| + 1
              && r.history[t][|r.history[t]| - 1].id == "bot-img-" + Decimal(clock)
              && (gen.Threw? ==> r.history[t][|r.history[t]| - 1] == ImagePlaceholder(clock, prompt, time))
              && (gen.Returned? ==>
                    r.history[t][|r.history[t]| - 1].content
                    == (if Truthy(gen.image) then SynthesisDone else SynthesisFailed))
              && (gen.Returned? && Truthy(gen.image) ==> r.history[t][|r.history[t]| - 1].image == gen.image)
              && (forall k | k in s.history && k != t :: r.history[k] == s.history[k])
              && r.userName == s.userName && r.themeColor == s.themeColor
  {
    match ImageGenTarget(s)
    case CreateFresh => CreateSession(s, DefaultPersonaId, st)
    case _ =>
      var t := ImageGenTarget(s).id;
      var placeholder := ImagePlaceholder(clock, prompt, time);
      var p := ImageGenPending(s, t, placeholder);
      match gen
      case Threw => p
      case Returned(image) =>
        var text := if Truthy(image) then SynthesisDone else SynthesisFailed;
        var img := if Truthy(image) then image else None;
        var before := HistoryOf(p.history, t);
        assert before == HistoryOf(s.history, t) + [placeholder];
        var after := UpdateMessages(before, placeholder.id, text, img);
        assert after[|after| - 1] == UpdateOne(placeholder, placeholder.id, text, img);
        p.(history := p.history[t := after], typing := false)
  }

  /** With an active session both variants agree. */
  lemma ImageGenAgreeWhenActive(s: AppState, prompt: string, clock: nat, time: int,
                                gen: Generated, st: Stamps)
    requires Truthy(s.active)
    ensures ImageGenAsWritten(s, prompt, clock, time, gen, st) == ImageGenCorrected(s, prompt, clock, time, gen, st)
  {
  }

  /** The discrepancy: with no active session, a first session to adopt and a generator that
      returns, the code as written leaves the placeholder in place unchanged, still announcing
      the synthesis. */
  lemma ImageGenAsWrittenStrandsPlaceholder(s: AppState, prompt: string, clock: nat, time: int,
                                            gen: Generated, st: Stamps)
    requires !Truthy(s.active) && |s.sessions| > 0 && gen.Returned?
    ensures var r := ImageGenAsWritten(s, prompt, clock, time, gen, st);
            var t := s.sessions[0].id;
            && r.history[t][|r.history[t]| - 1] == ImagePlaceholder(clock, prompt, time)
            && r.history[t][|r.history[t]| - 1].content
               != ImageGenCorrected(s, prompt, clock, time, gen, st).history[t][|r.history[t]| - 1].content
  {
    var placeholder := ImagePlaceholder(clock, prompt, time);
    var t := s.sessions[0].id;
    var p := ImageGenPending(s, t, placeholder);
    var r := ImageGenAsWritten(s, prompt, clock, time, gen, st);
    assert r.history == p.history;
    assert r.history[t][|r.history[t]| - 1] == placeholder;
    var fixed := ImageGenCorrected(s, prompt, clock, time, gen, st).history[t];
    assert |fixed| == |r.history[t]|;
    PlaceholderIsNotFinal(clock, prompt, time);
  }

  /** The placeholder text is neither of the two final texts. */
  lemma PlaceholderIsNotFinal(clock: nat, prompt: string, time: int)
    ensures ImagePlaceholder(clock, prompt, time).content != SynthesisDone
    ensures ImagePlaceholder(clock, prompt, time).content != SynthesisFailed
  {
    var c := ImagePlaceholder(clock, prompt, time).content;
    assert c[1] == 'I';
    assert SynthesisDone[1] == 'V';
    assert SynthesisFailed[1] == 'R';
  }

  // ---------------------------------------------------------------- vault

  /** A parsed vault file: each field may be missing. */
  datatype Vault = Vault(
    sessions: Option<seq<Session>>,
    messageHistory: Option<map<string, seq<Message>>>,
    userName: Option<string>,
    themeColor: Option<string>)

  /** The record `handleExportVault` writes, without its timestamp and version tag. */
  function ExportVault(s: AppState): (v: Vault)
    ensures v.sessions == Some(s.sessions) && v.messageHistory == Some(s.history)
    ensures v.userName == Some(s.userName) && v.themeColor == Some(s.themeColor)
  {
    Vault(Some(s.sessions), Some(s.history), Some(s.userName), Some(s.themeColor))
  }

  /** The import merge: a vault missing its sessions or its history is ignored; otherwise both
      replace the current ones, and the user name and theme colour are taken from the vault
      unless missing or empty. The active session and the typing flag stay. */
  function ImportVault(s: AppState, v: Vault): (r: AppState)
    ensures v.sessions.None? || v.messageHistory.None? ==> r == s
    ensures v.sessions.Some? && v.messageHistory.Some? ==>
              && r.sessions == v.sessions.value && r.history == v.messageHistory.value
              && (Truthy(v.userName) ==> r.userName == v.userName.value)
              && (!Truthy(v.userName) ==> r.userName == s.userName)
              && (Truthy(v.themeColor) ==> r.themeColor == v.themeColor.value)
              && (!Truthy(v.themeColor) ==> r.themeColor == s.themeColor)
    ensures r.active == s.active && r.typing == s.typing
  {
    if v.sessions.None? || v.messageHistory.None? then s
    else
      s.(sessions := v.sessions.value, history := v.messageHistory.value,
         userName := if Truthy(v.userName) then v.userName.value else s.userName,
         themeColor := if Truthy(v.themeColor) then v.themeColor.value else s.themeColor)
  }

  /** Importing an export restores its sessions and history into any state, and the settings
      unless they were empty; importing one's own export changes nothing. */
  lemma ExportImportRoundTrip(s: AppState, current: AppState)
    ensures var r := ImportVault(current, ExportVault(s));
            && r.sessions == s.sessions && r.history == s.history
            && (s.userName != "" ==> r.userName == s.userName)
            && (s.themeColor != "" ==> r.themeColor == s.themeColor)
    ensures ImportVault(s, ExportVault(s)) == s
  {
  }
}

=== FILE: text.dfy ===
/** The handful of JavaScript string primitives the client relies on:
    `startsWith`, `trim`, `toUpperCase`, `Number.prototype.toString` and `+=`. */
module Text {

  predicate StartsWith(s: string, prefix: string) {
    |prefix| <= |s| && s[..|prefix|] == prefix
  }

  /** The characters JavaScript's `trim` strips and its regular-expression class `\s` matches:
      the WhiteSpace and LineTerminator code points of ECMAScript. */
  predicate IsSpace(c: char) {
    || c == ' ' || c == '\t' || c == '\n' || c == '\r'
    || c == '\U{000B}' || c == '\U{000C}' || c == '\U{00A0}' || c == '\U{1680}'
    || ('\U{2000}' <= c <= '\U{200A}')
    || c == '\U{2028}' || c == '\U{2029}' || c == '\U{202F}' || c == '\U{205F}'
    || c == '\U{3000}' || c == '\U{FEFF}'
  }

  /** `s` with its leading whitespace run removed. */
  function TrimStart(s: string): (r: string)
    ensures |r| <= |s| && r == s[|s| - |r|..]
    ensures forall i | 0 <= i < |s| - |r| :: IsSpace(s[i])
    ensures r == [] || !IsSpace(r[0])
  {
    if |s| == 0 || !IsSpace(s[0]) then s else TrimStart(s[1..])
  }

  /** `s` with its trailing whitespace run removed. */
  function TrimEnd(s: string): (r: string)
    ensures |r| <= |s| && r == s[..|r|]
    ensures forall i | |r| <= i < |s| :: IsSpace(s[i])
    ensures r == [] || !IsSpace(r[|r| - 1])
  {
    if |s| == 0 || !IsSpace(s[|s| - 1]) then s else TrimEnd(s[..|s| - 1])
  }

  /** JavaScript `s.trim()`: a contiguous slice of `s` that neither starts nor ends with
      whitespace, and everything cut away on either side is whitespace. */
  function Trim(s: string): (r: string)
    ensures var lo := |s| - |TrimStart(s)|;
            && lo + |r| <= |s|
            && r == s[lo..lo + |r|]
            && (forall i | 0 <= i < lo :: IsSpace(s[i]))
            && (forall i | lo + |r| <= i < |s| :: IsSpace(s[i]))
    ensures r == [] || (!IsSpace(r[0]) && !IsSpace(r[|r| - 1]))
  {
    var t := TrimStart(s);
    var r := TrimEnd(t);
    var lo := |s| - |t|;
    assert r == s[lo..lo + |r|];
    r
  }

  /** Trimming an already trimmed string changes nothing. */
  lemma TrimIdempotent(s: string)
    ensures Trim(Trim(s)) == Trim(s)
  {
    var r := Trim(s);
    assert TrimStart(r) == r;
    assert TrimEnd(r) == r;
  }

  /** Upper-case mapping of one character; only the ASCII letters are mapped. */
  function UpperChar(c: char): (u: char)
    ensures 'a' <= c <= 'z' ==> u as int == c as int - 32
    ensures !('a' <= c <= 'z') ==> u == c
  {
    if 'a' <= c <= 'z' then (c as int - 32) as char else c
  }

  /** JavaScript `s.toUpperCase()` restricted to ASCII letters: same length, character by character. */
  function Upper(s: string): (r: string)
    ensures |r| == |s|
    ensures forall i | 0 <= i < |s| :: r[i] == UpperChar(s[i])
  {
    if |s| == 0 then "" else [UpperChar(s[0])] + Upper(s[1..])
  }

  function DigitChar(d: nat): (c: char)
    requires d < 10
    ensures '0' <= c <= '9'
  {
    ('0' as int + d) as char
  }

  /** The decimal numeral `n.toString()` of a non-negative integer: digits only, no leading zero. */
  function Decimal(n: nat): (r: string)
    ensures |r| > 0
    ensures forall i | 0 <= i < |r| :: '0' <= r[i] <= '9'
    ensures |r| > 1 ==> r[0] != '0'
  {
    if n < 10 then [DigitChar(n)] else Decimal(n / 10) + [DigitChar(n % 10)]
  }

  /** The value a decimal numeral denotes. */
  function ValueOf(s: string): int
  {
    if |s| == 0 then 0 else 10 * ValueOf(s[..|s| - 1]) + (s[|s| - 1] as int - '0' as int)
  }

  /** `Decimal` is the inverse of reading the numeral back, hence injective. */
  lemma {:induction false} DecimalRoundTrip(n: nat)
    ensures ValueOf(Decimal(n)) == n
  {
    if n >= 10 {
      DecimalRoundTrip(n / 10);
      var r := Decimal(n);
      assert r[..|r| - 1] == Decimal(n / 10);
    }
  }

  /** The concatenation of a list of strings, the result of repeated `s += chunk`. */
  function Concat(chunks: seq<string>): string
  {
    if |chunks| == 0 then "" else Concat(chunks[..|chunks| - 1]) + chunks[|chunks| - 1]
  }

  /** Concatenating a longer list only extends the result: every prefix of the chunk list
      yields a prefix of the full text. */
  lemma {:induction false} ConcatPrefix(chunks: seq<string>, k: nat)
    requires k <= |chunks|
    ensures StartsWith(Concat(chunks), Concat(chunks[..k]))
  {
    if k < |chunks| {
      var n := |chunks|;
      ConcatPrefix(chunks[..n - 1], k);
      assert chunks[..n - 1][..k] == chunks[..k];
    } else {
      assert chunks[..k] == chunks;
    }
  }
}

=== FILE: text_grid.dfy ===
/** Text laid out as lines of equal width, each line followed by a newline: the shape of the
    string the ASCII renderer builds. The facts here are about arbitrary lines, so the renderer
    can use them without unfolding any pixel arithmetic. */
module TextGrid {

  /** `h * w` written as repeated addition, so that layout proofs stay linear;
      `AreaIsProduct` relates it to the product. */
  function Area(w: nat, h: nat): nat
  {
    if h == 0 then 0 else Area(w, h - 1) + w
  }

  lemma {:induction false} AreaIsProduct(w: nat, h: nat)
    ensures Area(w, h) == h * w
  {
    if h > 0 {
      AreaIsProduct(w, h - 1);
      assert h * w == (h - 1) * w + w;
    }
  }

  lemma {:induction false} AreaMonotone(w: nat, h1: nat, h2: nat)
    requires h1 <= h2
    ensures Area(w, h1) <= Area(w, h2)
  {
    if h1 < h2 {
      AreaMonotone(w, h1, h2 - 1);
    }
  }

  /** Every line is exactly `w` characters wide. */
  predicate Uniform(lines: seq<string>, w: nat)
  {
    forall y | 0 <= y < |lines| :: |lines[y]| == w
  }

  /** The lines in order, each one followed by `"\n"`. */
  function JoinLines(lines: seq<string>): string
  {
    if |lines| == 0 then "" else JoinLines(lines[..|lines| - 1]) + lines[|lines| - 1] + "\n"
  }

  /** Appending one more line appends it and its newline to the text. */
  lemma JoinLinesSnoc(lines: seq<string>, line: string)
    ensures JoinLines(lines + [line]) == JoinLines(lines) + line + "\n"
  {
    assert (lines + [line])[..|lines|] == lines;
  }

  /** `h` lines of width `w` make `h * (w + 1)` characters. */
  lemma {:induction false} JoinLinesLength(lines: seq<string>, w: nat)
    requires Uniform(lines, w)
    ensures |JoinLines(lines)| == Area(w + 1, |lines|)
  {
    if |lines| > 0 {
      JoinLinesLength(lines[..|lines| - 1], w);
    }
  }

  /** Row-major layout: character `x` of line `y` sits at `y * (w + 1) + x`, and the newline
      closing line `y` at `y * (w + 1) + w`. */
  lemma {:induction false} JoinLinesAt(lines: seq<string>, w: nat, y: nat, x: nat)
    requires Uniform(lines, w)
    requires y < |lines| && x < w
    ensures Area(w + 1, y) + w < |JoinLines(lines)|
    ensures JoinLines(lines)[Area(w + 1, y) + x] == lines[y][x]
    ensures JoinLines(lines)[Area(w + 1, y) + w] == '\n'
  {
    var n := |lines|;
    var init := lines[..n - 1];
    JoinLinesLength(init, w);
    if y < n - 1 {
      JoinLinesAt(init, w, y, x);
    }
  }

  /** `JoinLinesAt` and `JoinLinesLength` with the offsets written as products. */
  lemma JoinLinesLayout(lines: seq<string>, w: nat, y: nat, x: nat)
    requires Uniform(lines, w)
    requires y < |lines| && x < w
    ensures |JoinLines(lines)| == |lines| * (w + 1)
    ensures y * (w + 1) + w < |JoinLines(lines)|
    ensures JoinLines(lines)[y * (w + 1) + x] == lines[y][x]
    ensures JoinLines(lines)[y * (w + 1) + w] == '\n'
  {
    JoinLinesLength(lines, w);
    AreaIsProduct(w + 1, |lines|);
    JoinLinesAt(lines, w, y, x);
    AreaIsProduct(w + 1, y);
  }

  /** If every line draws its characters from `glyphs`, the text consists of those characters
      and newlines only. */
  lemma {:induction false} JoinLinesAlphabet(lines: seq<string>, glyphs: set<char>)
    requires forall y, x | 0 <= y < |lines| && 0 <= x < |lines[y]| :: lines[y][x] in glyphs
    ensures forall i | 0 <= i < |JoinLines(lines)| :: JoinLines(lines)[i] in glyphs + {'\n'}
  {
    if |lines| > 0 {
      JoinLinesAlphabet(lines[..|lines| - 1], glyphs);
    }
  }
}

=== FILE: types.dfy ===
/** The records the chat client passes around (types.ts) and the fixed persona
    and channel catalogue it ships with (constants.tsx). */
module Types {

  /** An optional value; `undefined` and `null` in the client both become `None`. */
  datatype Option<+T> = None | Some(value: T) {
    function GetOr(default: T): T {
      match this
      case Some(v) => v
      case None => default
    }
  }

  /** JavaScript truthiness of an optional string: `null`, `undefined` and `""` are falsy. */
  predicate Truthy(s: Option<string>) {
    s.Some? && s.value != ""
  }

  datatype Role = User | Model | System

  /** A chat message. `image` is the optional base64 picture, `isAscii` the optional render flag. */
  datatype Message = Message(
    id: string,
    role: Role,
    content: string,
    timestamp: int,
    image: Option<string>,
    isAscii: Option<bool>)

  /** A conversation thread. An absent `isStatic` behaves as `false` everywhere it is read. */
  datatype Session = Session(
    id: string,
    name: string,
    personaId: string,
    lastUpdate: int,
    isStatic: bool)

  /** A bot profile. The long system-instruction prose is handed only to the remote model
      and is not part of this model. */
  datatype Persona = Persona(id: string, name: string, description: string, avatar: string, color: string)

  datatype Channel = Channel(id: string, name: string, topic: string, persona: Persona)

  const NeuroSynapse: Persona :=
    Persona("neuro-synapse", "NEURO-SYNAPSE",
            "High-level analytical AI. Cold, efficient, and data-driven.",
            "https://picsum.photos/seed/synapse/200", "#00ffff")

  const GhostShell: Persona :=
    Persona("ghost-shell", "GHOST-IN-SHELL",
            "Philosophical entity observing the transcendental deep web.",
            "https://picsum.photos/seed/ghost/200", "#ff00ff")

  const GlitchZero: Persona :=
    Persona("glitch-zero", "GLITCH-ZERO",
            "Chaos-driven hacker bot. Unpredictable and rebellious.",
            "https://picsum.photos/seed/glitch/200", "#00ff00")

  /** The persona catalogue, keyed by persona id. */
  const Personas: map<string, Persona> :=
    map["neuro-synapse" := NeuroSynapse, "ghost-shell" := GhostShell, "glitch-zero" := GlitchZero]

  /** The persona every lookup falls back to. */
  const DefaultPersonaId: string := "neuro-synapse"

  /** The three built-in channels, in display order. */
  const Channels: seq<Channel> := [
    Channel("data-nexus", "data-nexus", "Main hub for logical data processing.", NeuroSynapse),
    Channel("void-reflections", "void-reflections", "Existential discussions in the digital ether.", GhostShell),
    Channel("anarchy-node", "anarchy-node", "System subversion and code-breaking.", GlitchZero)
  ]

  /** Every catalogue entry is filed under its own id, the fallback id is in the catalogue,
      and every channel's persona is a catalogue entry. */
  lemma CatalogueConsistent()
    ensures DefaultPersonaId in Personas
    ensures forall k | k in Personas :: Personas[k].id == k
    ensures forall i | 0 <= i < |Channels| :: Channels[i].persona.id in Personas
                                         && Personas[Channels[i].persona.id] == Channels[i].persona
  {
  }
}
